=== FILE: README.md ===
# Diablo-VPN core, modelled in Dafny

Diablo-VPN is a command-line VPN whose host side runs on Linux. This project
models the parts of it that decide what the program does, leaving out the
parts that move packets:

- **Session registry** (`diablo/status.py`). There is one persisted session
  record, `status.json`. A liveness probe decides whether the pid it records
  still runs, and deletes the record when it does not.
- **Privilege probe** `is_root`.
- **Host entry points** (`diablo/server.py`): the platform check, the
  already-running check, starting a server and stopping it.
- **Restart** (`diablo/restart.py`): stop the recorded session and start it
  again in the role it had.
- **Configuration** (`diablo/settings.py`): the user's `config.json`, the
  shipped defaults, and the rules tying the defaults to their choices.
- **Server password** (`diablo/auth.py`): whether one is required or set,
  changing it, prompting for it and verifying it.
- **Settings menu** (`diablo/menus.py`):
  - the footer cache;
  - how the options are built from the choice lists;
  - the key loop of `open_settings_menu`.
- **Colouring helpers** of both copies of `terminal.py`.
- **The two `createlogo.py` scripts** that paint the banner picture.

Everything outside the process becomes a parameter:

- the files (`status.json`, `config.json`);
- the entries under `/proc`;
- the platform name and the effective uid;
- the result of `os.kill`;
- the argon2 hasher;
- the answers typed at prompts and the keys pressed.

A file the program rewrites is the field of a class (`Status.StatusStore`,
`Settings.ConfigFile`), and so is the `Menus` class state. Each method states
its whole new state.

An exception or `sys.exit` is a value of `Wrappers.Flow`: `Continue`,
`Exit(code)` or `Raised`. Where a function can raise, it returns `None`.
Running out of typed answers stands for Ctrl-C, which the code turns into
exit code 1.

## Model

| member | source | states |
|---|---|---|
| PyStr.DecRoundTrip | toolkit/createlogo.py:34-35 | The decimal text of a natural number parses back, with `int()`, to that number. |
| PyStr.UnderscoresGroupDigits | toolkit/createlogo.py:34-35 | For any two digit groups, `int()` accepts them joined by one underscore, with or without a sign. The underscore is dropped and the value is that of the digits of both groups. |
| PyStr.MisplacedUnderscoresRaise | toolkit/createlogo.py:34-35 | For any text, an underscore that is not between two digits (leading, trailing, doubled or next to the sign) makes `int()` raise. |
| PyStr.StripNonEmpty | diablo/auth.py:41 | `strip()` leaves something exactly when the text holds a non-whitespace character. |
| PyStr.Split | diablo/menus.py:76 | `split(':')` gives at least one field, and no field contains the separator. |
| PyStr.SplitJoin | diablo/menus.py:76 | Joining the fields of `split` with the separator gives back the text. |
| PyStr.FirstWord | toolkit/createlogo.py:34 | For text that starts with a non-blank, the first word of `split()` is its leading run of non-blanks. |
| Json.Get | diablo/status.py:46-47 | `dict.get` gives the stored value when the key is there, and the default otherwise. |
| Ansi.StripColoredExactly | diablo/terminal.py:27-32 | Text coloured character by character shows exactly that text once the escape sequences are removed. |
| Ansi.ColoredAppend | diablo/terminal.py:27-32 | Colouring two texts one after the other equals colouring their concatenation. |
| Ansi.ColoredLength | diablo/terminal.py:27-32 | Each character costs one colour selection, itself and one reset. |
| Ansi.SgrIsCsi | diablo/terminal.py:31 | `\x1b[38;2;r;g;bm` is an ECMA-48 control sequence: parameter bytes, then a final byte. |
| Terminal.FindAnsi | diablo/terminal.py:27-32 | The loop wraps each character in the colour and a reset. The result shows `msg` once stripped, and its length is `|msg|` times the cost of one character. |
| Terminal.ReturnAnsi | diablo/terminal.py:35-41 | No name and no rgb give white. A non-empty name picks its preset and fails when it is unknown. Otherwise the rgb is used. Any result shows `msg` once stripped. |
| Terminal.NameTakesPrecedence | diablo/terminal.py:35-41 | When a colour name is given, the rgb has no effect. |
| Terminal.Write | diablo/terminal.py:44-51 | Plain text without a colour. A named preset (failing on an unknown name) or the rgb otherwise. Always followed by the newline. |
| Terminal.Log | diablo/terminal.py:54-56 | The line reads `[+] msg`, is light blue, and starts with that colour's selection. |
| Terminal.Warn | diablo/terminal.py:58-61 | The line reads `[-] Warning: msg` in light yellow. |
| Terminal.Error | diablo/terminal.py:63-66 | The line reads `[+] msg` (the prefix of `log`) in red. |
| Terminal.Success | diablo/terminal.py:68-71 | The line reads `[+] Success: msg` in green. |
| Terminal.LogAndErrorShowTheSameText | diablo/terminal.py:54-66 | `log` and `error` show the same text and differ only in colour. |
| BuildTerminal.FindAnsi | build/lib/diablo/terminal.py:16-22 | The same per-character colouring, and it shows `msg` once stripped. |
| BuildTerminal.Write | build/lib/diablo/terminal.py:25-32 | Plain or rgb-coloured line. Any colour name raises, because `Terminal.colors` does not exist. |
| BuildTerminal.NamedColourAlwaysFails | build/lib/diablo/terminal.py:25-32 | Even the names in `preset` cannot be written by name. |
| BuildTerminal.Log | build/lib/diablo/terminal.py:34-37 | `[+] msg` in light blue. |
| BuildTerminal.Warn | build/lib/diablo/terminal.py:39-42 | `[-] Warning: msg` in light yellow. |
| BuildTerminal.Error | build/lib/diablo/terminal.py:44-47 | `[+] msg` in red. |
| BuildTerminal.Success | build/lib/diablo/terminal.py:49-52 | `[+] Success: msg` in green. |
| MiscLogo.ColorLogo | misc/createlogo.py:14-26 | The script writes the whole picture, newlines included, coloured character by character in its one colour. It shows the lines, each followed by a newline. |
| MiscLogo.TerminatedAppend | misc/createlogo.py:19-23 | The picture of two runs of lines is the picture of the first followed by that of the second. |
| MiscLogo.LogoAppend | misc/createlogo.py:20-23 | The coloured picture of `a + b` is that of `a` followed by that of `b`. |
| MiscLogo.LogoOfOneLine | misc/createlogo.py:21-23 | One line is its coloured characters, then the coloured newline. |
| ToolkitLogo.Classify | toolkit/createlogo.py:31-53 | A line that does not start with `!`, or that starts with `!` but matches none of the commands, is rendered unchanged. |
| ToolkitLogo.CommandLinesEmitNothing | toolkit/createlogo.py:33-53 | A command line emits nothing. `!star N` restarts the count at 0. `!end white` and `!end yellow` clear their flag and keep the other. `!white` and `!yellow` set theirs. |
| ToolkitLogo.CreateLogo | toolkit/createlogo.py:19-83 | The command loop writes the same text to `./logo` and to the banner, and that text is what `Paint` describes. Nothing is written when a `!star` line raises. |
| ToolkitLogo.ShownPicture | toolkit/createlogo.py:29-77 | With the escapes removed, the output is the file's picture lines up to a bare `!end`, each with its newline. |
| ToolkitLogo.PlainPicture | toolkit/createlogo.py:55-77 | A file of plain picture lines comes out as `misc/createlogo.py` would colour it, in the base colour. |
| ToolkitLogo.PictureLines | toolkit/createlogo.py:31 | Lines that do not start with `!` are all picture lines. |
| ToolkitLogo.StarRun | toolkit/createlogo.py:57-73 | Inside a star run at count `s` of `n`, the next `n - s` lines are in the star colour. On the last of them `_` and space keep the base colour. Every later line is in the base colour. |
| ToolkitLogo.StarCommand | toolkit/createlogo.py:33-37 | `!star N` makes exactly the next N picture lines star lines. |
| ToolkitLogo.EndIgnoresTheRest | toolkit/createlogo.py:38-41 | A bare `!end` ends the picture, whatever follows. |
| ToolkitLogo.OverridePrecedence | toolkit/createlogo.py:64-67 | White overrides yellow and the star run; yellow overrides the star run. |
| Status.ProcName | diablo/status.py:50 | The `/proc` entry a recorded pid names: the decimal of an integer, a string itself. `None`, floats, lists and objects name none. |
| Status.DeadPids | diablo/status.py:46-50 | A missing pid, pid 0 and a pid without a `/proc` entry are dead. |
| Status.StatusStore.constructor | diablo/status.py:8 | The store starts with the given file. |
| Status.StatusStore.LoadStatus | diablo/status.py:12-21 | The record, or `{}` for a missing file or one that does not decode. |
| Status.StatusStore.SaveStatus | diablo/status.py:23-28 | The file holds the record, and reading it back gives that record. |
| Status.StatusStore.ClearStatus | diablo/status.py:30-34 | The file is gone whether or not it existed, and reading it gives `{}`. |
| Status.StatusStore.IsSessionActive | diablo/status.py:36-57 | The result is active exactly when a record is returned. A `{}` record is inactive and untouched. A live pid answers by mode and keeps the file. A dead pid deletes the file. |
| Status.IsRoot | diablo/status.py:59-71 | As written: euid 0 on Linux and macOS. Never on Windows. Always on any other system. |
| Status.IsRootIntended | diablo/status.py:59-71 | The same probe, with a Windows administrator recognised. |
| Status.WindowsAdministratorIsNotRoot | diablo/status.py:66-70 | The two probes differ only for a Windows administrator, whom the code as written rejects. |
| Server.ServerRecord | diablo/server.py:39-46 | The fresh server record: mode, pid, host address, no clients, no password. |
| Server.CheckPlatform | diablo/server.py:23-28 | Continue exactly on Linux; otherwise exit with code 0. |
| Server.Server.constructor | diablo/server.py:14-21 | Active exactly when the stored record is non-empty, its pid is alive and its mode is `server`; the snapshot is then that record. An empty record or a live pid leaves the file. A dead pid deletes it. |
| Server.Server.CheckStatus | diablo/server.py:30-47 | A running server exits and leaves the file. Otherwise the server record is saved and reads back. |
| Server.Server.StartServer | diablo/server.py:49-58 | Platform check, then status check. The tunnel starts only when both pass. |
| Server.Server.StopServer | diablo/server.py:60-89 | Only an active, confirmed snapshot passes its recorded pid to `os.kill`, and that pid is the result. The result is the pid attempted, even when the kill raises. The record is cleared when the signal was delivered or the process was gone, and kept when the kill failed, which it always does for a pid that is not an integer. |
| Restart.RoleOf | diablo/restart.py:23-31 | `"server"` and `"client"` name their roles; other modes none. |
| Restart.Restart | diablo/restart.py:6-31 | No live session: nothing is signalled. A dead record is deleted. A live one is signalled, cleared only when the kill succeeded (never for a pid that is not an integer), and restarted in its recorded role, or reported as an unknown mode. |
| Settings.ConfigFile.constructor | diablo/settings.py:83-88 | The file starts present or absent with the given content. |
| Settings.ConfigFile.LoadConfig | diablo/settings.py:90-93 | The stored record. A missing file raises `FileNotFoundError`; bytes that do not decode raise `JSONDecodeError`. |
| Settings.ConfigFile.SaveConfig | diablo/settings.py:95-98 | The file holds the record. |
| Settings.ConfigFile.EnsureConfigExists | diablo/settings.py:83-88 | A missing file receives the defaults; an existing one is kept. |
| Settings.ConfigFile.UpdateConfig | diablo/settings.py:100-104 | New keys take their new values; every other key keeps its value, and none is removed. A file that does not load fails and changes nothing. |
| Settings.ConfigFile.ValidateConfig | diablo/settings.py:106-124 | True exactly when the file was missing, which then holds the defaults. A file that does not decode raises and is left alone. A stored key unknown to the defaults resets the file to the defaults; otherwise the file is kept. Afterwards every stored key is a default key. |
| Settings.ValidateChoice | diablo/settings.py:126-139 | Non-text rules accept anything. `_.TEXT_INT` accepts ints and bools, `_.TEXT_FLOAT` floats, other text rules strings. A non-string rule raises. |
| Settings.ValidateDefaultChoices | diablo/settings.py:142-160 | Accepts exactly when every default passes its listed rules, or is a bool when none are listed. |
| Settings.ShippedDefaultsRejected | diablo/settings.py:47-72 | The shipped defaults fail only on `filtered_ports`, which defaults to `[]` with no listed choices. |
| Settings.InferredOptions | diablo/settings.py:200-204 | A setting's choices: its listed ones, Yes/No for a bool default, and none otherwise. |
| Settings.FindSettingsOptions | diablo/settings.py:185-216 | `None` exactly when the defaults fail. Otherwise every default with inferred choices gets them, other options stay, and every stored setting gets its shown value. |
| Settings.InferOptions | diablo/settings.py:200-204 | The first loop: inferred choices for every default that has them, nothing else changed. |
| Settings.ShownValues | diablo/settings.py:206-216 | The second loop: Yes/No for bools, and the setting's name for anything else, for exactly the stored keys. |
| Auth.IsPasswordRequired | diablo/auth.py:33-36 | The stored `require_password`, False when absent. A missing file raises. |
| Auth.IsPasswordSet | diablo/auth.py:38-41 | False without a stored hash. A missing file raises. |
| Auth.PasswordSetMeansNonBlank | diablo/auth.py:38-41 | A password is set exactly when the stored hash holds a non-whitespace character. |
| Auth.VerifyPassword | diablo/auth.py:119-126 | True exactly when the file exists, the hash is a non-empty string, and the hasher accepts the attempt. |
| Auth.Judge | diablo/auth.py:62-77 | A pair is accepted exactly when both entries agree and are at least 4 long. A mismatch is exactly a disagreement. |
| Auth.FirstAccepted | diablo/auth.py:58-79 | The position of the first pair whose entries agree and are at least 4 long; every earlier pair is refused. `None` when every pair is refused. |
| Auth.ReadNewPassword | diablo/auth.py:58-79 | The password of the pair `FirstAccepted` finds, after reading exactly the pairs up to it. Running out of pairs means none was accepted. |
| Auth.PasswordChange | diablo/auth.py:43-85 | Declining the warning exits with code 0, and an interrupt with code 1, both with the record unchanged. A configuration that does not load raises. Otherwise the record stores the hash of the first accepted password (at least 4 long) under `password_hash` and keeps every other key. |
| Auth.ChangePassword | diablo/auth.py:43-85 | Ends as `PasswordChange` says, and the file then loads as the record it gives. Any other ending leaves the file untouched. The accepted password is that of the first accepted pair. |
| Auth.PromptPassword | diablo/auth.py:87-117 | True as soon as an attempt verifies, within the allowance, and every earlier attempt failed. After `allowed_attempts` failures: False when `exit=False`, exit 1 when `exit=True`. Running out of answers first is Ctrl-C: exit 1. A failure asks exactly the allowance, or every answer when they run out first. |
| Auth.SetupPassword | diablo/auth.py:128-142 | No password: a change without the warning. A password and a root answer from `is_root`: a change after the warning. Anyone else must confirm the old one within three attempts, else exit 1. Each change ends as `PasswordChange` says, with the file holding its record. An unreadable configuration raises. |
| Menus.PrefixedNamesDiffer | diablo/menus.py:25-35 | Two different names never share a cache key. |
| Menus.MenuState.constructor | diablo/menus.py:16-19 | The cache and `_actions` start empty. |
| Menus.MenuState.GetCache | diablo/menus.py:29-35 | The value under `.TMP.name`, or `None`. |
| Menus.MenuState.ClearCache | diablo/menus.py:21-23 | Nothing is left in the cache. |
| Menus.MenuState.AddCache | diablo/menus.py:25-27 | The name now gives the value, and every other name what it gave before. |
| Menus.MenuState.MakeMenuFooter | diablo/menus.py:155-159 | The footer, its length and the right-shift flag are cached. The footer is then drawn on the last row at the column `StartColumn` gives. |
| Menus.MenuState.DrawFooter | diablo/menus.py:171-185 | Nothing without a footer. Otherwise the cached footer on the last row: at column 0 unless right-shifted. A right shift without a length fails. |
| Menus.StartColumn | diablo/menus.py:179-183 | A right-shifted footer that fits ends in the last column; a longer one starts at column 1. Otherwise column 0. |
| Menus.InstructionText | diablo/menus.py:199-215 | The footer shows exactly the given messages in argument order, and its recorded length is their total length. |
| Menus.AddPiece | diablo/menus.py:203-214 | One given message adds its styled piece, and the length keeps counting the visible text. |
| Menus.MenuState.UpdateInstruction | diablo/menus.py:199-215 | The cache holds the instruction footer, the length of its visible text and the shift flag. A right-shifted footer that fits is drawn ending in the last column. |
| Menus.FieldRulesFollow | diablo/menus.py:74-81 | Parsing fails exactly when `MIN` or `MAX` is the last field. Otherwise each limit present takes the field after its last occurrence, and nothing else is set. |
| Menus.ParseRules | diablo/menus.py:76-81 | The field loop gives the rules `FieldRules` describes. |
| Menus.TextKind | diablo/menus.py:64-73 | As written, only port and address rules keep a type of their own; every other text rule gives `text`. |
| Menus.TextRule | diablo/menus.py:63-81 | Both `if` chains give the type `TextKind` states. A plain text rule with fields is parsed. |
| Menus.NumberRulesGiveText | diablo/menus.py:64-73 | `_.TEXT_INT` and `_.TEXT_FLOAT` leave a plain `text` menu. |
| Menus.ScanListFacts | diablo/menus.py:57-83 | A choice list fails exactly when some entry raises. Otherwise the offered values are its non-rule entries in order, and the type is the one the last rule sets. |
| Menus.ScanChoices | diablo/menus.py:57-90 | The entry loop computes the scan described by `ScanList`. |
| Menus.EnvironmentFacts | diablo/menus.py:54-90 | Built options list every setting once, in order, each with its current value. A list option offers exactly the values its list offers. |
| Menus.SetupMenuEnvironment | diablo/menus.py:48-90 | The setting loop builds the options `Environment` describes. |
| Menus.Find | diablo/menus.py:368 | The first position of a name among the options, or none when it is absent. |
| Menus.IndexOf | diablo/menus.py:370 | `list.index`: the first position of the value, present exactly when the value is in the list. |
| Menus.RestoreUpdates | diablo/menus.py:397-400 | A change that restores cleanly updates `current` with the change. The options keep their names, kinds and choices. |
| Menus.RestoreOptions | diablo/menus.py:397-400 | When the option names are distinct, a change that restores cleanly sets `options[option]["current"]` of each option it names to that option's last previous value in the change. No such option is blank. Every other option is left as it was. |
| Menus.RestorePairFacts | diablo/menus.py:398-400 | One pair changes one value and keeps the options' shape. |
| Menus.RestoreChange | diablo/menus.py:397-400 | The pair loop restores as `Restore` describes, stopping at the first failure. |
| Menus.MoveWraps | diablo/menus.py:356-365 | UP and DOWN move to the previous or next option (or choice), wrapping around at either end. |
| Menus.EscapeUndoes | diablo/menus.py:396-406 | `key == 'u' or 'U'` is always true, so ESC and every other key undo. |
| Menus.StepKeepsRange | diablo/menus.py:356-400 | A key that does not raise keeps `hovering` and `choosing` within their lists. |
| Menus.RunKeepsRange | diablo/menus.py:350-406 | The same over any run of keys. |
| Menus.CurrentOnlyChangedByUndo | diablo/menus.py:350-406 | Without an undo, the caller's `current` and `_actions` end as they started: choosing a value changes only the menu's copy. |
| Menus.SelectTransitions | diablo/menus.py:366-391 | ENTER opens the hovered option at its current value. ENTER again stores the highlighted choice and returns to hovering. LEFT goes back without storing, or leaves the loop. |
| Menus.UndoRestores | diablo/menus.py:396-400 | Undoing pops the latest change (and needs one). It restores the change in `current` and, for distinct option names, in each named option's `current`, leaving the other options unchanged. |
| Menus.SettingsLinesKeep | diablo/menus.py:300-323 | `_set_settings_menu` writes only option lines, so the header and footer entries survive it. |
| Menus.MenuState.MakeMenuHeader | diablo/menus.py:148-153 | The cache holds the header under `_.HEADER`. |
| Menus.MenuState.SetSettingsMenu | diablo/menus.py:300-323 | The five lines of each option, in order, up to the first blank option, which raises. |
| Menus.MenuState.OpenSettingsMenu | diablo/menus.py:333-409 | The loop's outcome is the one `Launch` describes, and `_actions` loses what was undone. A failure while building the options leaves the cache as it was. A blank option leaves the header, the hovering footer and the lines written so far. Once the loop is entered, the cache ends empty however the loop is left. |

## Left out

- I/O is left out: reading and writing files, `print`, the terminal's cursor
  and alternate screen, and `shutil.get_terminal_size`. Files are modelled as
  fields, and the terminal size as parameters.
- The following are oracles or parameters, not computed:
  - `platform.system`, `os.geteuid` and `IsUserAnAdmin`;
  - the entries under `/proc`;
  - the outcome of `os.kill`;
  - the argon2 hasher and its verification;
  - `getpass`/`input` answers and `read_control_key` keys.
- `diablo/tun.py`, `diablo/tls_handler.py`, `diablo/forwarder.py`,
  `diablo/certgen.py`, `diablo/daemon.py` and `diablo/__main__.py` are not
  part of this model. Setting up the tunnel is a flag of `Server.Server`, and
  starting the client is an outcome of `Restart.Restart`.
- `toolkit/curses_color.py` and `setup.py` are not part of this model.
- The escape codes of `Terminal.get_color`, `get_bold`, `get_color_bold` and
  `get_reverse_bold` are not modelled. A footer piece keeps its style as a
  tag.
- `Terminal.dev_error` is not modelled. In `validate_default_choices` it ends
  the program, so the check answers false. In `_setup_menu_environment` the
  misuse check is only a message, and the loop goes on.
- The menu's drawing (`_draw_header`, `_draw_line`, `_draw_menu`,
  `_set_dropdown`, `_print_cache`) is not modelled, and neither are the cache
  writes inside the loop: `close_menu` empties the cache once the loop ends.
  The header text and the rendered option lines are parameters.
- `_delete_cache_group` and `_update_settings_menu` are not modelled: neither
  is called on the settings path.
- `_set_text_prompt` is reduced to its failure: it reads an undefined `i`, so
  ENTER on a `text` option raises.
- The `option_names` branch of `_setup_menu_environment` is not modelled.
- In the string branch of `_setup_menu_environment`, the rule parsing is not
  modelled; such an option is an option with a current value and no choice
  list. The settings menu only passes lists: every value of
  `none_bool_options` is a list.
- The `Terminal` calls of `auth.py`, `server.py`, `restart.py` and
  `menus.py` that the modelled `diablo/terminal.py` does not define are taken
  to succeed and to print only. In `auth.py` and `server.py` these are
  `write` with `color_bold`, `print`, `move_up`, `flush`, `prompt_response`,
  `quick_message`, `start_animation`, `stop_animation`, `get_ansi`,
  `get_bold` and `newline`. In `menus.py` they are `get_logo`,
  `get_color_bold`, `important_line`, `get_bold`, `read_control_key`,
  `write_at`, `launch_terminal`, `hide_cursor`, `close_terminal`,
  `show_cursor`, `pretty`, `clear`, `move_cursor_home`, `sys_write` and
  `dev_error`. As written, `_make_menu_header` raises `AttributeError` at
  `diablo/menus.py:150` (`Terminal.get_logo`) before any line is cached, so
  every settings menu would fail there. The model draws the header instead.
- Menus.MenuState.OpenSettingsMenu: `choices` is a Python dict, so its
  names are distinct. The model's sequence of pairs also admits repeated
  names, which the source cannot produce.
- Menus.IndexOf: `list.index` compares with Python `==`, where `1 == True`
  and `1 == 1.0`. The model compares values structurally.
- Status.ProcName: `str()` of a float, list or object is taken to name no
  `/proc` entry.
- Settings.FindSettingsOptions: the stored record is passed in, so the
  `FileNotFoundError` of `load_config` on a missing `config.json` is not
  modelled here; `Settings.ConfigFile.LoadConfig` models it.
- Settings.FindSettingsOptions: `find_settings_options` fills the caller's
  `options` dict in place. The model returns the filled map instead.
- Menus.MenuState.OpenSettingsMenu: the chosen values and the undo stack
  live in the loop state `Menus.Nav`, not in fields of `MenuState`. The
  caller's `current` is returned in `Nav` rather than updated in place.
- ToolkitLogo.Classify: `int()` also accepts decimal digits outside ASCII
  (Arabic-Indic, full-width and others). `PyStr.ParseInt` accepts ASCII digits
  only, so such a `!star` count is modelled as raising.
- MiscLogo.ColorLogo: the model takes the lines `str.splitlines()` returns,
  and the splitting itself is not modelled. `splitlines` breaks lines at `\n`, `\r`,
  `\r\n`, `\x0b`, `\x0c`, `\x1c`, `\x1d`, `\x1e`, `\x85`, `\u2028` and `\u2029`,
  and a final line break gives no empty last line.
- ToolkitLogo.CreateLogo: the same holds for the lines of `canvas.txt`.
- Status.StatusStore.LoadStatus: a status file holding JSON that is not an
  object (a list or a number, say) decodes to no record here. In the source
  `is_session_active` then raises `AttributeError` on `status.get`.
- Settings.ConfigFile.LoadConfig: likewise, a `config.json` holding JSON
  that is not an object is not modelled. Its callers would raise on `.get`,
  `.update` or the key loop.

## Findings

| source | as written | input that shows it | evidently intended | confidence | as-written member | corrected member |
|---|---|---|---|---|---|---|
| diablo/status.py:66-70 (and diablo/auth.py:26-30) | On Windows, `is_root` calls `ctypes.wind11.shell32.IsUserAnAdmin()`. `ctypes` has no `wind11`, so the bare `except` returns False for every user. | system `"Windows"`, a user for whom `IsUserAnAdmin()` is true | `ctypes.windll.shell32.IsUserAnAdmin()`: administrators are root | high; not executed | Status.IsRoot (with Status.WindowsAdministratorIsNotRoot); it gives the `root` answer of Auth.SetupPassword as written | Status.IsRootIntended, the `root` answer of Auth.SetupPassword once corrected |

=== FILE: ansi.dfy ===
/**
 * ECMA-48 colouring as the program writes it: each character is wrapped in a
 * 24-bit foreground "select graphic rendition" sequence (section 8.3.117,
 * parameters `38;2;r;g;b`) and followed by the reset sequence (parameter `0`).
 * Both copies of `terminal.py` and both `createlogo.py` scripts build on this.
 */
module Ansi {
  import opened PyStr

  const ESC: char := '\U{1B}'

  /** A colour as the Python code passes it around: an `(r, g, b)` tuple. */
  datatype Rgb = Rgb(r: nat, g: nat, b: nat)

  /** The parameters `38;2;{r};{g};{b}` of a 24-bit foreground selection. */
  function SgrParams(c: Rgb): string {
    "38;2;" + Dec(c.r) + ";" + Dec(c.g) + ";" + Dec(c.b)
  }

  /** `"\x1b[38;2;{r};{g};{b}m"`: select the 24-bit foreground colour `c`. */
  function Sgr(c: Rgb): string {
    [ESC, '['] + SgrParams(c) + "m"
  }

  /** `"\x1b[0m"`: reset every graphic rendition. */
  const RESET: string := [ESC] + "[0m"

  /** Each character of `msg` between `pre` and `post`. */
  function Wrap(msg: string, pre: string, post: string): string {
    if msg == [] then [] else pre + [msg[0]] + post + Wrap(msg[1..], pre, post)
  }

  /** Each character of `msg` in colour `c`, followed by a reset. */
  function Colored(msg: string, c: Rgb): string {
    Wrap(msg, Sgr(c), RESET)
  }

  /** ECMA-48 parameter and intermediate bytes (0x20 to 0x3F). */
  predicate IsParamByte(ch: char) {
    ' ' <= ch <= '?'
  }

  predicate AllParams(s: string) {
    forall i :: 0 <= i < |s| ==> IsParamByte(s[i])
  }

  /** A control sequence: `ESC [`, parameter bytes, then a final byte. */
  predicate IsCsi(x: string) {
    |x| >= 3 && x[0] == ESC && x[1] == '[' && AllParams(x[2..|x| - 1]) && !IsParamByte(x[|x| - 1])
  }

  /** What follows a control sequence whose introducer has been consumed:
    * skip the parameter bytes, then drop the final byte. */
  function AfterFinal(s: string): (r: string)
    ensures |r| < |s| || r == []
    decreases |s|
  {
    if s == [] then []
    else if IsParamByte(s[0]) then AfterFinal(s[1..])
    else s[1..]
  }

  /** The text a terminal would show: every `ESC [` control sequence removed. */
  function StripSgr(s: string): string
    decreases |s|
  {
    if s == [] then []
    else if |s| >= 2 && s[0] == ESC && s[1] == '[' then StripSgr(AfterFinal(s[2..]))
    else [s[0]] + StripSgr(s[1..])
  }

  lemma AfterFinalSkips(params: string, final: char, t: string)
    requires AllParams(params)
    requires !IsParamByte(final)
    ensures AfterFinal(params + [final] + t) == t
    decreases |params|
  {
    if params != [] {
      assert (params + [final] + t)[1..] == params[1..] + [final] + t;
      AfterFinalSkips(params[1..], final, t);
    }
  }

  /** A control sequence shows nothing. */
  lemma StripCsi(x: string, t: string)
    requires IsCsi(x)
    ensures StripSgr(x + t) == StripSgr(t)
  {
    var s := x + t;
    var params := x[2..|x| - 1];
    assert s[0] == ESC && s[1] == '[';
    assert s[2..] == params + [x[|x| - 1]] + t;
    AfterFinalSkips(params, x[|x| - 1], t);
  }

  lemma AllParamsCat(a: string, b: string)
    requires AllParams(a) && AllParams(b)
    ensures AllParams(a + b)
  {
    assert forall i :: |a| <= i < |a + b| ==> (a + b)[i] == b[i - |a|];
  }

  lemma DigitsAreParams(s: string)
    requires AllDigits(s)
    ensures AllParams(s)
  {
  }

  /** The parameters of a colour selection are parameter bytes. */
  lemma SgrParamsAreParams(c: Rgb)
    ensures AllParams(SgrParams(c))
  {
    var r, g, b := Dec(c.r), Dec(c.g), Dec(c.b);
    DigitsAreParams(r);
    DigitsAreParams(g);
    DigitsAreParams(b);
    assert AllParams("38;2;") && AllParams(";");
    AllParamsCat("38;2;", r);
    AllParamsCat("38;2;" + r, ";");
    AllParamsCat("38;2;" + r + ";", g);
    AllParamsCat("38;2;" + r + ";" + g, ";");
    AllParamsCat("38;2;" + r + ";" + g + ";", b);
  }

  /** A colour selection is a control sequence. */
  lemma SgrIsCsi(c: Rgb)
    ensures IsCsi(Sgr(c))
  {
    SgrParamsAreParams(c);
    var x := Sgr(c);
    assert x[2..|x| - 1] == SgrParams(c);
  }

  /** The reset is a control sequence. */
  lemma ResetIsCsi()
    ensures IsCsi(RESET)
  {
    assert RESET[2..|RESET| - 1] == "0";
  }

  /** A colour selection shows nothing. */
  lemma StripSgrSelect(c: Rgb, t: string)
    ensures StripSgr(Sgr(c) + t) == StripSgr(t)
  {
    SgrIsCsi(c);
    StripCsi(Sgr(c), t);
  }

  /** A reset shows nothing. */
  lemma StripSgrReset(t: string)
    ensures StripSgr(RESET + t) == StripSgr(t)
  {
    ResetIsCsi();
    StripCsi(RESET, t);
  }

  /** Wrapping distributes over concatenation, and maps "" to "". */
  lemma {:induction false} WrapAppend(a: string, b: string, pre: string, post: string)
    ensures Wrap(a + b, pre, post) == Wrap(a, pre, post) + Wrap(b, pre, post)
    decreases |a|
  {
    if a != [] {
      assert (a + b)[0] == a[0];
      assert (a + b)[1..] == a[1..] + b;
      WrapAppend(a[1..], b, pre, post);
    } else {
      assert a + b == b;
    }
  }

  /** Colouring distributes over concatenation, and maps "" to "". */
  lemma ColoredAppend(a: string, b: string, c: Rgb)
    ensures Colored(a + b, c) == Colored(a, c) + Colored(b, c)
  {
    WrapAppend(a, b, Sgr(c), RESET);
  }

  /** Wrapping one more character. */
  lemma WrapSnoc(s: string, ch: char, pre: string, post: string)
    ensures Wrap(s + [ch], pre, post) == Wrap(s, pre, post) + (pre + [ch] + post)
  {
    WrapAppend(s, [ch], pre, post);
    assert Wrap([ch], pre, post) == pre + [ch] + post + Wrap([], pre, post);
  }

  /** One coloured character. */
  lemma ColoredOne(ch: char, c: Rgb)
    ensures Colored([ch], c) == Sgr(c) + [ch] + RESET
  {
    assert Wrap([ch], Sgr(c), RESET) == Sgr(c) + [ch] + RESET + Wrap([], Sgr(c), RESET);
  }

  /** Colouring one more character appends one selection, it and a reset. */
  lemma ColoredSnoc(s: string, ch: char, c: Rgb)
    ensures Colored(s + [ch], c) == Colored(s, c) + Sgr(c) + [ch] + RESET
  {
    WrapSnoc(s, ch, Sgr(c), RESET);
  }

  /** Colouring a prefix one character longer. */
  lemma ColoredPrefixStep(s: string, j: nat, c: Rgb)
    requires j < |s|
    ensures Colored(s[..j + 1], c) == Colored(s[..j], c) + (Sgr(c) + [s[j]] + RESET)
  {
    assert s[..j + 1] == s[..j] + [s[j]];
    WrapSnoc(s[..j], s[j], Sgr(c), RESET);
  }

  /** Non-empty coloured text starts by selecting its colour. */
  lemma ColoredStartsWithSelect(msg: string, c: Rgb, t: string)
    ensures msg != [] ==> Sgr(c) <= Colored(msg, c) + t
  {
    if msg != [] {
      var pre := Sgr(c);
      assert Wrap(msg, pre, RESET) + t == pre + ([msg[0]] + RESET + Wrap(msg[1..], pre, RESET) + t);
    }
  }

  /** Each character costs its `pre`, itself and its `post`. */
  lemma {:induction false} WrapLength(msg: string, pre: string, post: string)
    ensures |Wrap(msg, pre, post)| == |msg| * (|pre| + 1 + |post|)
    decreases |msg|
  {
    if msg != [] {
      var k := |pre| + 1 + |post|;
      WrapLength(msg[1..], pre, post);
      assert |Wrap(msg, pre, post)| == k + |msg[1..]| * k;
      assert k + (|msg| - 1) * k == |msg| * k;
    }
  }

  /** Each character costs one selection, itself and one reset. */
  lemma ColoredLength(msg: string, c: Rgb)
    ensures |Colored(msg, c)| == |msg| * (|Sgr(c)| + 1 + |RESET|)
  {
    WrapLength(msg, Sgr(c), RESET);
  }

  /** A character between two control sequences shows as that character. */
  lemma StripOneWrapped(ch: char, pre: string, post: string, rest: string)
    requires IsCsi(pre) && IsCsi(post)
    ensures StripSgr(pre + [ch] + post + rest) == [ch] + StripSgr(rest)
  {
    var tail := [ch] + (post + rest);
    assert pre + [ch] + post + rest == pre + tail;
    StripCsi(pre, tail);
    assert tail[0] == ch && tail[1..] == post + rest;
    assert post[0] == ESC;
    StripCsi(post, rest);
  }

  /** One coloured character shows as that character. */
  lemma StripOneColored(ch: char, c: Rgb, rest: string)
    ensures StripSgr(Sgr(c) + [ch] + RESET + rest) == [ch] + StripSgr(rest)
  {
    SgrIsCsi(c);
    ResetIsCsi();
    StripOneWrapped(ch, Sgr(c), RESET, rest);
  }

  /** Removing control sequences from wrapped text, and whatever follows it,
    * gives back the text itself. */
  lemma {:induction false} StripWrapped(msg: string, pre: string, post: string, t: string)
    requires IsCsi(pre) && IsCsi(post)
    ensures StripSgr(Wrap(msg, pre, post) + t) == msg + StripSgr(t)
    decreases |msg|
  {
    if msg != [] {
      var rest := Wrap(msg[1..], pre, post) + t;
      assert Wrap(msg, pre, post) + t == pre + [msg[0]] + post + rest;
      StripOneWrapped(msg[0], pre, post, rest);
      StripWrapped(msg[1..], pre, post, t);
      assert [msg[0]] + msg[1..] == msg;
    } else {
      assert Wrap(msg, pre, post) + t == t;
    }
  }

  /** Removing the escape sequences from coloured text, and whatever follows
    * it, gives back the text itself. */
  lemma StripColored(msg: string, c: Rgb, t: string)
    ensures StripSgr(Colored(msg, c) + t) == msg + StripSgr(t)
  {
    SgrIsCsi(c);
    ResetIsCsi();
    StripWrapped(msg, Sgr(c), RESET, t);
  }

  /** The round trip without a tail. */
  lemma StripColoredExactly(msg: string, c: Rgb)
    ensures StripSgr(Colored(msg, c)) == msg
  {
    StripColored(msg, c, []);
    assert Colored(msg, c) + [] == Colored(msg, c);
    assert StripSgr([]) == [];
  }

  /** Text without escape characters is shown as it is. */
  lemma {:induction false} StripPlain(s: string)
    requires forall i :: 0 <= i < |s| ==> s[i] != ESC
    ensures StripSgr(s) == s
    decreases |s|
  {
    if s != [] {
      StripPlain(s[1..]);
    }
  }
}

=== FILE: auth.dfy ===
/**
 * `diablo/auth.py`: the server password. The argon2 hasher is an oracle: the
 * hash it produces for the accepted password is passed in, and `verifies`
 * answers whether an attempt matches a stored hash. Interactive prompts are
 * sequences of the answers the user types; running out of answers stands for
 * the user pressing Ctrl-C (`KeyboardInterrupt`), which the code turns into
 * `sys.exit(1)`.
 */
module Auth {
  import opened Wrappers
  import opened PyStr
  import opened Json
  import opened Status
  import opened Settings

  /** `Authentication.CONFIG_KEY`. */
  const CONFIG_KEY := "password_hash"

  /** `is_password_required`: the stored `require_password`, False when the
    * key is absent; `None` when the configuration cannot be loaded. */
  function IsPasswordRequired(config: Option<Record>): (r: Option<Value>)
    ensures r.Some? <==> config.Some?
    ensures config.Some? && "require_password" in config.value ==> r == Some(config.value["require_password"])
    ensures config.Some? && "require_password" !in config.value ==> r == Some(Bool(false))
  {
    match config
    case None => None
    case Some(c) => Some(Get(c, "require_password", Bool(false)))
  }

  /** `is_password_set`: the stored hash, `""` when absent, is not blank.
    * `None` when that raises: no configuration, or a hash that is not a
    * string (it has no `strip`). */
  function IsPasswordSet(config: Option<Record>): (r: Option<bool>)
    ensures config.Some? && CONFIG_KEY !in config.value ==> r == Some(false)
    ensures config.None? ==> r.None?
  {
    match config
    case None => None
    case Some(c) =>
      match Get(c, CONFIG_KEY, Str(""))
      case Str(h) => Some(Strip(h) != "")
      case _ => None
  }

  /** A password is set exactly when the stored hash holds a character that
    * is not whitespace. */
  lemma PasswordSetMeansNonBlank(config: Record)
    requires CONFIG_KEY in config && config[CONFIG_KEY].Str?
    ensures IsPasswordSet(Some(config)) == Some(true) <==>
      exists i :: 0 <= i < |config[CONFIG_KEY].s| && !IsSpace(config[CONFIG_KEY].s[i])
  {
    StripNonEmpty(config[CONFIG_KEY].s);
  }

  /** `verify_password`: whether `attempt` matches the stored hash. Every
    * failure is False: no configuration, no hash (argon2 rejects `""`), a hash
    * that is not a string, or a mismatch. */
  function VerifyPassword(config: Option<Record>, attempt: string, verifies: (string, string) -> bool): (ok: bool)
    ensures ok ==> config.Some? && CONFIG_KEY in config.value
    ensures ok <==> (config.Some? && Get(config.value, CONFIG_KEY, Str("")).Str? &&
                     Get(config.value, CONFIG_KEY, Str("")).s != "" &&
                     verifies(Get(config.value, CONFIG_KEY, Str("")).s, attempt))
  {
    match config
    case None => false
    case Some(c) =>
      match Get(c, CONFIG_KEY, Str(""))
      case Str(h) => h != "" && verifies(h, attempt)
      case _ => false
  }

  /** What `change_password` makes of one (password, confirmation) pair. */
  datatype PairVerdict = Mismatch | TooShort | Accepted

  /** The mismatch test comes first; then the length test. */
  function Judge(passw: string, confirm: string): (v: PairVerdict)
    ensures v == Accepted <==> passw == confirm && |passw| >= 4
    ensures v == Mismatch <==> passw != confirm
  {
    if passw != confirm then Mismatch
    else if |passw| < 4 then TooShort
    else Accepted
  }

  /** The position of the first pair `change_password` accepts, if any. */
  function FirstAccepted(pairs: seq<(string, string)>): (i: Option<nat>)
    ensures i.Some? ==> i.value < |pairs| && Judge(pairs[i.value].0, pairs[i.value].1) == Accepted
    ensures i.Some? ==> forall j :: 0 <= j < i.value ==> Judge(pairs[j].0, pairs[j].1) != Accepted
    ensures i.None? ==> forall j :: 0 <= j < |pairs| ==> Judge(pairs[j].0, pairs[j].1) != Accepted
    decreases |pairs|
  {
    if pairs == [] then None
    else if Judge(pairs[0].0, pairs[0].1) == Accepted then Some(0)
    else match FirstAccepted(pairs[1..])
      case None => None
      case Some(k) => Some(k + 1)
  }

  /** The retry loop of `change_password`: read pairs until one is accepted.
    * `None` when the answers run out first (Ctrl-C). */
  method ReadNewPassword(pairs: seq<(string, string)>) returns (passw: Option<string>, used: nat)
    ensures used <= |pairs|
    ensures passw.Some? <==> FirstAccepted(pairs).Some?
    ensures passw.Some? ==> used == FirstAccepted(pairs).value + 1 && passw.value == pairs[used - 1].0
  {
    var i := 0;
    while i < |pairs|
      invariant 0 <= i <= |pairs|
      invariant forall j :: 0 <= j < i ==> Judge(pairs[j].0, pairs[j].1) != Accepted
    {
      var (p, c) := pairs[i];
      if p != c {
        // "Passwords did not match"
      } else if |p| < 4 {
        // "[!] Passwords must be at least 4 characters"
      } else {
        return Some(p), i + 1;
      }
      i := i + 1;
    }
    return None, |pairs|;
  }

  /** What `change_password` does to a configuration that loads as `stored`:
    * the way it ends, and the record stored afterwards. */
  function PasswordChange(stored: Option<Record>, warn: bool, answerYes: bool, pairs: seq<(string, string)>,
                          hashOf: string -> string): (r: (Flow, Option<Record>))
    ensures warn && !answerYes ==> r == (Exit(0), stored)
    ensures !(warn && !answerYes) && FirstAccepted(pairs).None? ==> r == (Exit(1), stored)
    ensures r.0 == Continue <==> !(warn && !answerYes) && FirstAccepted(pairs).Some? && stored.Some?
    ensures r.0 != Continue ==> r.0 in {Exit(0), Exit(1), Raised} && r.1 == stored
    ensures r.0 == Continue ==>
      var p := pairs[FirstAccepted(pairs).value].0;
      |p| >= 4 && pairs[FirstAccepted(pairs).value].1 == p && stored.Some? && r.1.Some? &&
      r.1.value.Keys == stored.value.Keys + {CONFIG_KEY} &&
      r.1.value[CONFIG_KEY] == Str(hashOf(p)) &&
      forall k :: k in stored.value && k != CONFIG_KEY ==> r.1.value[k] == stored.value[k]
  {
    if warn && !answerYes then (Exit(0), stored)
    else match FirstAccepted(pairs)
      case None => (Exit(1), stored)
      case Some(i) =>
        if stored.None? then (Raised, stored)
        else (Continue, Some(stored.value[CONFIG_KEY := Str(hashOf(pairs[i].0))]))
  }

  /** `change_password`: with `warn`, a "no" to the warning exits with code 0
    * before any prompt. Otherwise read pairs until one is accepted (exit 1 when
    * the user interrupts), then store the hash of the accepted password under
    * `password_hash`, leaving every other key alone (`PasswordChange`).
    * `hashOf` is the hasher. */
  method ChangePassword(config: ConfigFile, warn: bool, answerYes: bool, pairs: seq<(string, string)>,
                        hashOf: string -> string)
    returns (flow: Flow, accepted: Option<string>)
    modifies config
    ensures flow == PasswordChange(old(config.LoadConfig()), warn, answerYes, pairs, hashOf).0
    ensures flow == Continue ==> config.LoadConfig() == PasswordChange(old(config.LoadConfig()), warn, answerYes, pairs, hashOf).1
    ensures flow != Continue ==> config.present == old(config.present) && config.content == old(config.content)
    ensures accepted.Some? <==> !(warn && !answerYes) && FirstAccepted(pairs).Some?
    ensures accepted.Some? ==> accepted.value == pairs[FirstAccepted(pairs).value].0
  {
    if warn && !answerYes {
      return Exit(0), None;
    }
    var used;
    accepted, used := ReadNewPassword(pairs);
    if accepted.None? {
      return Exit(1), None;
    }
    var hash := hashOf(accepted.value);
    var stored := config.LoadConfig();
    if stored.None? {
      return Raised, accepted;
    }
    config.SaveConfig(stored.value[CONFIG_KEY := Str(hash)]);
    flow := Continue;
  }

  /** How many times `prompt_password` may ask: a negative allowance asks
    * none. */
  function Budget(allowedAttempts: int): nat {
    if allowedAttempts < 0 then 0 else allowedAttempts
  }

  /** `prompt_password`: ask for the password at most `allowedAttempts` times.
    * True as soon as an attempt verifies; after that many failures, exit with
    * code 1 when `exitOnFailure`, False otherwise. Running out of answers
    * while being asked is Ctrl-C: exit 1. `prompts` is how many were asked. */
  method PromptPassword(config: Option<Record>, allowedAttempts: int, exitOnFailure: bool,
                        answers: seq<string>, verifies: (string, string) -> bool)
    returns (flow: Flow, ok: bool, prompts: nat)
    ensures prompts <= |answers| && prompts <= Budget(allowedAttempts)
    ensures ok ==> flow == Continue && prompts >= 1 && VerifyPassword(config, answers[prompts - 1], verifies)
    ensures forall j :: 0 <= j < prompts - 1 ==> !VerifyPassword(config, answers[j], verifies)
    ensures flow == Continue && !ok ==> !exitOnFailure && prompts == Budget(allowedAttempts)
    ensures !ok ==> forall j :: 0 <= j < prompts ==> !VerifyPassword(config, answers[j], verifies)
    ensures flow != Continue ==> flow == Exit(1) && !ok
    ensures !ok ==> prompts == (if Budget(allowedAttempts) <= |answers| then Budget(allowedAttempts) else |answers|)
    ensures !ok ==> (flow == Continue <==> !exitOnFailure && Budget(allowedAttempts) <= |answers|)
    ensures (exists j :: 0 <= j < |answers| && j < allowedAttempts && VerifyPassword(config, answers[j], verifies)) ==> ok
  {
    var attempts := 0;
    prompts := 0;
    while true
      invariant 0 <= attempts && prompts == attempts && attempts <= |answers|
      invariant allowedAttempts >= 0 ==> attempts <= allowedAttempts
      invariant allowedAttempts < 0 ==> attempts == 0
      invariant forall j :: 0 <= j < attempts ==> !VerifyPassword(config, answers[j], verifies)
      decreases |answers| - attempts
    {
      if attempts < allowedAttempts {
        if attempts == |answers| {
          return Exit(1), false, prompts;
        }
        var passw := answers[attempts];
        prompts := prompts + 1;
        if VerifyPassword(config, passw, verifies) {
          return Continue, true, prompts;
        }
      } else {
        if exitOnFailure {
          return Exit(1), false, prompts;
        } else {
          return Continue, false, prompts;
        }
      }
      attempts := attempts + 1;
    }
  }

  /** Which way `setup_password` went. */
  datatype Route =
    | FirstPassword       // no password yet: change without warning
    | ChangedAsRoot       // a password and a privileged user: change with warning
    | ChangedAfterPrompt  // a password, no privilege: the old one was confirmed first
    | Refused             // the old password was not confirmed
    | Unreadable          // `is_password_set` raised

  /** `setup_password`. `root` is the answer of `is_root` (auth.py has its
    * own copy of `Status.IsRoot`, Windows defect included). The prompt is
    * asked with the default three attempts and `exit=True`, so a failed
    * confirmation ends in `sys.exit(1)` inside the prompt and the
    * `sys.exit()` after it is never reached. */
  method SetupPassword(config: ConfigFile, root: bool,
                       answerYes: bool, oldAnswers: seq<string>, pairs: seq<(string, string)>,
                       hashOf: string -> string, verifies: (string, string) -> bool)
    returns (flow: Flow, route: Route)
    modifies config
    ensures var isSet := IsPasswordSet(old(config.LoadConfig()));
      (isSet.None? <==> route == Unreadable) &&
      (isSet == Some(false) <==> route == FirstPassword) &&
      (isSet == Some(true) && root <==> route == ChangedAsRoot) &&
      (isSet == Some(true) && !root <==> route in {ChangedAfterPrompt, Refused})
    ensures route in {FirstPassword, ChangedAsRoot, ChangedAfterPrompt} ==>
      flow == PasswordChange(old(config.LoadConfig()), route != FirstPassword, answerYes, pairs, hashOf).0
    ensures route in {FirstPassword, ChangedAsRoot, ChangedAfterPrompt} && flow == Continue ==>
      config.LoadConfig() == PasswordChange(old(config.LoadConfig()), route != FirstPassword, answerYes, pairs, hashOf).1
    ensures flow != Continue ==> config.content == old(config.content) && config.present == old(config.present)
    ensures route == Refused ==> flow == Exit(1)
    ensures route == Unreadable ==> flow == Raised
    ensures route == ChangedAfterPrompt ==>
      exists j :: 0 <= j < |oldAnswers| && j < 3 && VerifyPassword(old(config.LoadConfig()), oldAnswers[j], verifies)
    ensures route == Refused ==>
      forall j :: 0 <= j < |oldAnswers| && j < 3 ==> !VerifyPassword(old(config.LoadConfig()), oldAnswers[j], verifies)
  {
    var isSet := IsPasswordSet(config.LoadConfig());
    var accepted: Option<string>;
    if isSet.None? {
      return Raised, Unreadable;
    }
    if isSet.value {
      if root {
        flow, accepted := ChangePassword(config, true, answerYes, pairs, hashOf);
        route := ChangedAsRoot;
      } else {
        var promptFlow, ok, prompts := PromptPassword(config.LoadConfig(), 3, true, oldAnswers, verifies);
        if ok {
          flow, accepted := ChangePassword(config, true, answerYes, pairs, hashOf);
          route := ChangedAfterPrompt;
        } else {
          flow, route := promptFlow, Refused;
        }
      }
    } else {
      flow, accepted := ChangePassword(config, false, answerYes, pairs, hashOf);
      route := FirstPassword;
    }
  }
}

=== FILE: build_terminal.dfy ===
/**
 * The older copy of the `Terminal` class kept in `build/lib/diablo/terminal.py`.
 * It has a smaller `preset` table and no `return_ansi`; its `write` looks a
 * colour name up in `Terminal.colors`, an attribute the class never defines.
 */
module BuildTerminal {
  import opened Wrappers
  import opened Ansi

  const WHITE := Rgb(255, 255, 255)
  const RED := Rgb(255, 0, 0)
  const GREEN := Rgb(0, 255, 0)
  const BLUE := Rgb(0, 0, 255)
  const LIGHT_BLUE := Rgb(26, 247, 253)
  const LIGHT_YELLOW := Rgb(255, 238, 140)

  /** `Terminal.preset` of the build copy. */
  const PRESET: map<string, Rgb> := map[
    "white" := WHITE, "red" := RED, "green" := GREEN, "blue" := BLUE,
    "light blue" := LIGHT_BLUE, "light yellow" := LIGHT_YELLOW]

  predicate Given(color: Option<string>) {
    color.Some? && color.value != ""
  }

  /** `_findansi` of the build copy: the same per-character loop. */
  method FindAnsi(msg: string, rgb: Rgb) returns (ansi: string)
    ensures ansi == Colored(msg, rgb)
    ensures StripSgr(ansi) == msg
  {
    ansi := "";
    var i := 0;
    while i < |msg|
      invariant 0 <= i <= |msg|
      invariant ansi == Colored(msg[..i], rgb)
    {
      ColoredPrefixStep(msg, i, rgb);
      ansi := ansi + Sgr(rgb) + [msg[i]] + RESET;
      i := i + 1;
    }
    assert msg[..i] == msg;
    StripColoredExactly(msg, rgb);
  }

  /** `write`: the printed line, or `None` where the code raises. With a colour
    * name it reads the undefined `Terminal.colors` and always raises
    * `AttributeError`, whatever the name. */
  function Write(msg: string, color: Option<string>, rgb: Option<Rgb>): (out: Option<string>)
    ensures !Given(color) && rgb.None? ==> out == Some(msg + "\n")
    ensures Given(color) ==> out.None?
    ensures !Given(color) && rgb.Some? ==> out == Some(Colored(msg, rgb.value) + "\n")
  {
    if !Given(color) && rgb.None? then Some(msg + "\n")
    else if Given(color) then None
    else Some(Colored(msg, rgb.value) + "\n")
  }

  /** Even the names `preset` does hold cannot be written by name. */
  lemma NamedColourAlwaysFails(msg: string)
    ensures forall name :: name in PRESET ==> Write(msg, Some(name), None).None?
  {
  }

  /** `log`: "[+] " in light blue. */
  function Log(msg: string): (out: string)
    ensures StripSgr(out) == "[+] " + msg + "\n"
    ensures Sgr(LIGHT_BLUE) <= out
  {
    StripColored("[+] " + msg, LIGHT_BLUE, "\n");
    StripPlain("\n");
    ColoredStartsWithSelect("[+] " + msg, LIGHT_BLUE, "\n");
    Colored("[+] " + msg, LIGHT_BLUE) + "\n"
  }

  /** `warn`: "[-] Warning: " in light yellow. */
  function Warn(msg: string): (out: string)
    ensures StripSgr(out) == "[-] Warning: " + msg + "\n"
    ensures Sgr(LIGHT_YELLOW) <= out
  {
    StripColored("[-] Warning: " + msg, LIGHT_YELLOW, "\n");
    StripPlain("\n");
    ColoredStartsWithSelect("[-] Warning: " + msg, LIGHT_YELLOW, "\n");
    Colored("[-] Warning: " + msg, LIGHT_YELLOW) + "\n"
  }

  /** `error`: "[+] " in red. */
  function Error(msg: string): (out: string)
    ensures StripSgr(out) == "[+] " + msg + "\n"
    ensures Sgr(RED) <= out
  {
    StripColored("[+] " + msg, RED, "\n");
    StripPlain("\n");
    ColoredStartsWithSelect("[+] " + msg, RED, "\n");
    Colored("[+] " + msg, RED) + "\n"
  }

  /** `success`: "[+] Success: " in green. */
  function Success(msg: string): (out: string)
    ensures StripSgr(out) == "[+] Success: " + msg + "\n"
    ensures Sgr(GREEN) <= out
  {
    StripColored("[+] Success: " + msg, GREEN, "\n");
    StripPlain("\n");
    ColoredStartsWithSelect("[+] Success: " + msg, GREEN, "\n");
    Colored("[+] Success: " + msg, GREEN) + "\n"
  }
}

=== FILE: json.dfy ===
/**
 * The values that the JSON files of the program (status record, configuration)
 * hold once Python has loaded them, with the Python notions the code relies on:
 * truthiness and `isinstance` checks.
 */
module Json {

  datatype Value =
    | Null
    | Bool(b: bool)
    | Int(i: int)
    | Float(f: real)
    | Str(s: string)
    | List(items: seq<Value>)
    | Object(fields: map<string, Value>)

  /** A JSON object as Python loads it: a dict from keys to values. */
  type Record = map<string, Value>

  /** What `json.load` makes of the bytes of an existing file: the record it
    * decodes to, or a `JSONDecodeError`. */
  datatype Content = Decodes(record: Record) | Garbled

  /** Python's `bool(v)`: empty containers, zero, `None` and `False` are falsy. */
  predicate Truthy(v: Value) {
    match v
    case Null => false
    case Bool(b) => b
    case Int(i) => i != 0
    case Float(f) => f != 0.0
    case Str(s) => s != ""
    case List(items) => items != []
    case Object(fields) => fields != map[]
  }

  /** `isinstance(v, int)`: Python's `bool` is a subclass of `int`. */
  predicate IsIntInstance(v: Value) {
    v.Int? || v.Bool?
  }

  /** `dict.get(key, default)`. */
  function Get(r: Record, key: string, default: Value): (v: Value)
    ensures key in r ==> v == r[key]
    ensures key !in r ==> v == default
  {
    if key in r then r[key] else default
  }
}

=== FILE: menus.dfy ===
/**
 * `diablo/menus.py`: the settings menu. `Menus` keeps two pieces of class
 * state, the display cache `_cache` and the undo history `_actions`; here they
 * are the fields of `MenuState`. The module covers the cache operations, the
 * footer and where it is drawn, how the options of the menu are built from
 * the choices of each setting, and the key-handling loop of
 * `open_settings_menu`. Drawing itself (header, lines, the terminal) is not
 * part of this model: keys are a sequence given in advance.
 */
module Menus {
  import opened Wrappers
  import opened PyStr
  import opened Json

  /** The prefix `_add_cache` and `_get_cache` put before every name. */
  const TMP := ".TMP."

  /** How a footer piece is styled. The styling helpers of `Terminal` are not
    * part of this model, so a piece keeps its style rather than its escape
    * codes. */
  datatype Style = ColorBold(color: string) | Color(color: string) | Bold | Plain

  datatype Part = Part(style: Style, text: string)

  /** What the cache holds: drawn text, the footer length, the right-shift
    * flag, and the styled footer. */
  datatype Cached = Text(s: string) | Number(n: int) | Flag(b: bool) | Footer(parts: seq<Part>)

  /** The text a footer shows once its styling is taken away. */
  function Unstyled(parts: seq<Part>): string {
    if parts == [] then "" else Unstyled(parts[..|parts| - 1]) + parts[|parts| - 1].text
  }

  lemma UnstyledSnoc(parts: seq<Part>, p: Part)
    ensures Unstyled(parts + [p]) == Unstyled(parts) + p.text
  {
    assert (parts + [p])[..|parts|] == parts;
  }

  /** `m` when it was given, `""` otherwise. */
  function Given(m: Option<string>): string {
    if m.Some? then m.value else ""
  }

  /** A footer piece for a message that was given. */
  function Piece(m: Option<string>, style: Style): seq<Part> {
    if m.Some? then [Part(style, m.value)] else []
  }

  /** The footer `_update_instruction` builds: the given messages in argument
    * order, bold and coloured, coloured, bold, and plain. */
  function Instruction(colorBold: Option<string>, colorMsg: Option<string>, boldMsg: Option<string>,
                       msg: Option<string>, color: string): seq<Part>
  {
    Piece(colorBold, ColorBold(color)) + Piece(colorMsg, Color(color)) + Piece(boldMsg, Bold) + Piece(msg, Plain)
  }

  lemma PieceText(m: Option<string>, style: Style)
    ensures Unstyled(Piece(m, style)) == Given(m)
  {
    if m.Some? {
      UnstyledSnoc([], Part(style, m.value));
    }
  }

  lemma {:induction false} UnstyledAppend(a: seq<Part>, b: seq<Part>)
    ensures Unstyled(a + b) == Unstyled(a) + Unstyled(b)
    decreases |b|
  {
    if b != [] {
      var front := b[..|b| - 1];
      assert a + b == (a + front) + [b[|b| - 1]];
      assert b == front + [b[|b| - 1]];
      UnstyledAppend(a, front);
      UnstyledSnoc(a + front, b[|b| - 1]);
      UnstyledSnoc(front, b[|b| - 1]);
    } else {
      assert a + b == a;
    }
  }

  /** The footer shows exactly the given messages, one after another, and its
    * recorded length is their total length. */
  lemma InstructionText(colorBold: Option<string>, colorMsg: Option<string>, boldMsg: Option<string>,
                        msg: Option<string>, color: string)
    ensures Unstyled(Instruction(colorBold, colorMsg, boldMsg, msg, color)) ==
      Given(colorBold) + Given(colorMsg) + Given(boldMsg) + Given(msg)
    ensures |Unstyled(Instruction(colorBold, colorMsg, boldMsg, msg, color))| ==
      |Given(colorBold)| + |Given(colorMsg)| + |Given(boldMsg)| + |Given(msg)|
  {
    var p1, p2, p3, p4 := Piece(colorBold, ColorBold(color)), Piece(colorMsg, Color(color)), Piece(boldMsg, Bold), Piece(msg, Plain);
    PieceText(colorBold, ColorBold(color));
    PieceText(colorMsg, Color(color));
    PieceText(boldMsg, Bold);
    PieceText(msg, Plain);
    UnstyledAppend(p1, p2);
    UnstyledAppend(p1 + p2, p3);
    UnstyledAppend(p1 + p2 + p3, p4);
  }

  /** Two different names never share a cache key. */
  lemma PrefixedNamesDiffer(a: string, b: string)
    requires a != b
    ensures TMP + a != TMP + b
  {
    assert (TMP + a)[|TMP|..] == a;
    assert (TMP + b)[|TMP|..] == b;
  }

  /** The column `_draw_footer` starts the footer at: right-aligned so that its
    * last visible character lands in the last column, but never left of
    * column 1; column 0 when not right-shifted. */
  function StartColumn(cols: int, footerLen: int, rightShift: bool): (col: int)
    ensures !rightShift ==> col == 0
    ensures rightShift ==> col >= 1
    ensures rightShift && 0 < footerLen <= cols ==> col + footerLen - 1 == cols
    ensures rightShift && footerLen > cols ==> col == 1
  {
    if rightShift then (if cols - footerLen + 1 > 1 then cols - footerLen + 1 else 1) else 0
  }

  /** What `_draw_footer` does: nothing without a footer; otherwise write it on
    * the last row `rows` at the column `StartColumn` gives. A right shift
    * without a stored length fails (`cols - None`). */
  datatype Drawn = NoFooter | At(row: int, col: int, footer: Cached) | DrawFails

  // ----------------------------------------------------------------------
  // Settings options.

  /** A choice list entry that names a rule rather than a value. */
  predicate IsTextRule(c: Value) {
    c.Str? && "_.TEXT" <= c.s
  }

  /** `MIN` and `MAX`, the two rules a text rule can carry. */
  predicate IsLimit(field: string) {
    field == "MIN" || field == "MAX"
  }

  /** The rules the first `n` fields of a `:`-separated rule set: the field after
    * each `MIN` or `MAX` becomes that rule's value, a later one replacing an
    * earlier. `None` when `MIN` or `MAX` is the last field (`params[i+1]`
    * raises `IndexError`). */
  function FieldRules(params: seq<string>, n: nat): Option<map<string, string>>
    requires n <= |params|
  {
    if n == 0 then Some(map[])
    else match FieldRules(params, n - 1)
      case None => None
      case Some(rules) =>
        var p := params[n - 1];
        if IsLimit(p) then (if n < |params| then Some(rules[p := params[n]]) else None)
        else Some(rules)
  }

  /** `MIN`/`MAX` at index `i`, followed by `v`, and not repeated before `n`. */
  predicate SetAt(params: seq<string>, n: nat, i: int, k: string, v: string)
    requires n <= |params|
  {
    0 <= i < n && i + 1 < |params| && params[i] == k && params[i + 1] == v &&
    forall j :: i < j < n ==> params[j] != k
  }

  /** Parsing fails exactly when the last field is a limit; otherwise the rules
    * are the limits present, each with the field after its last
    * occurrence. */
  lemma {:induction false} FieldRulesFollow(params: seq<string>, n: nat)
    requires n <= |params|
    ensures FieldRules(params, n).None? <==> n == |params| && n > 0 && IsLimit(params[n - 1])
    ensures FieldRules(params, n).Some? ==> forall k :: k in FieldRules(params, n).value ==> IsLimit(k)
    ensures FieldRules(params, n).Some? ==> forall i :: 0 <= i < n && IsLimit(params[i]) ==>
      params[i] in FieldRules(params, n).value
    ensures FieldRules(params, n).Some? ==> forall k :: k in FieldRules(params, n).value ==>
      exists i :: SetAt(params, n, i, k, FieldRules(params, n).value[k])
  {
    if n > 0 {
      FieldRulesFollow(params, n - 1);
      var prev := FieldRules(params, n - 1);
      assert prev.Some?;
      var r := FieldRules(params, n);
      if r.Some? {
        var p := params[n - 1];
        forall k | k in r.value
          ensures exists i :: SetAt(params, n, i, k, r.value[k])
        {
          if IsLimit(p) && k == p {
            assert SetAt(params, n, n - 1, k, r.value[k]);
          } else {
            var i :| SetAt(params, n - 1, i, k, prev.value[k]);
            assert SetAt(params, n, i, k, r.value[k]);
          }
        }
      }
    }
  }

  /** The menu type a `_.TEXT` rule sets, as written: the test for
    * `_.TEXT_PORT` starts a second `if` whose `else` replaces the `text-int`
    * that `_.TEXT_INT` and `_.TEXT_FLOAT` set, so only a port or address rule
    * keeps a type of its own. */
  function TextKind(rule: string): (kind: string)
    ensures kind != "text" <==> rule == "_.TEXT_PORT" || rule == "_.TEXT_IP_ADDRESS"
  {
    if rule == "_.TEXT_PORT" then "text-port"
    else if rule == "_.TEXT_IP_ADDRESS" then "text-ip-address"
    else "text"
  }

  /** What one list of choices becomes: the values offered, the menu type and
    * the rules. */
  datatype Scan = Scan(kept: seq<Value>, kind: string, rules: map<string, string>)

  /** The effect of one entry of a choice list. A non-string raises
    * (`startswith`). */
  function ScanOne(sc: Scan, c: Value): Option<Scan> {
    if !c.Str? then None
    else if !IsTextRule(c) then Some(sc.(kept := sc.kept + [c]))
    else
      var kind := TextKind(c.s);
      if kind == "text" && ':' in c.s then
        var params := Split(c.s, ':');
        match FieldRules(params, |params|)
        case None => None
        case Some(r) => Some(Scan(sc.kept, kind, r))
      else Some(sc.(kind := kind))
  }

  /** The entries of a choice list, scanned left to right from a dropdown with
    * no rules. */
  function ScanList(cs: seq<Value>): Option<Scan> {
    if cs == [] then Some(Scan([], "dropdown", map[]))
    else match ScanList(cs[..|cs| - 1])
      case None => None
      case Some(sc) => ScanOne(sc, cs[|cs| - 1])
  }

  /** The entries of a choice list that are values, in order. */
  function Offered(cs: seq<Value>): seq<Value> {
    if cs == [] then []
    else (if IsTextRule(cs[0]) then [] else [cs[0]]) + Offered(cs[1..])
  }

  /** An entry that makes the scan raise. */
  predicate Raises(c: Value) {
    !c.Str? ||
    (IsTextRule(c) && TextKind(c.s) == "text" && ':' in c.s &&
     FieldRules(Split(c.s, ':'), |Split(c.s, ':')|).None?)
  }

  /** The kind the last rule entry of `cs` sets; a list without one stays a
    * dropdown. */
  function LastKind(cs: seq<Value>): string {
    if cs == [] then "dropdown"
    else if IsTextRule(cs[|cs| - 1]) then TextKind(cs[|cs| - 1].s)
    else LastKind(cs[..|cs| - 1])
  }

  lemma OfferedSnoc(cs: seq<Value>, c: Value)
    ensures Offered(cs + [c]) == Offered(cs) + (if IsTextRule(c) then [] else [c])
  {
    if cs != [] {
      assert (cs + [c])[1..] == cs[1..] + [c];
      OfferedSnoc(cs[1..], c);
    }
  }

  /** A choice list scans without raising exactly when no entry raises; the
    * values offered are its non-rule entries in their order, and the type is
    * the one the last rule sets. */
  lemma {:induction false} ScanListFacts(cs: seq<Value>)
    ensures ScanList(cs).None? <==> exists i :: 0 <= i < |cs| && Raises(cs[i])
    ensures ScanList(cs).Some? ==> ScanList(cs).value.kept == Offered(cs)
    ensures ScanList(cs).Some? ==> ScanList(cs).value.kind == LastKind(cs)
  {
    if cs != [] {
      var front, c := cs[..|cs| - 1], cs[|cs| - 1];
      assert cs == front + [c];
      ScanListFacts(front);
      OfferedSnoc(front, c);
      if ScanList(front).None? {
        var i :| 0 <= i < |front| && Raises(front[i]);
        assert Raises(cs[i]);
      } else if ScanList(cs).None? {
        assert Raises(cs[|cs| - 1]);
      } else {
        forall i | 0 <= i < |cs|
          ensures !Raises(cs[i])
        {
          if i < |front| {
            assert cs[i] == front[i];
          }
        }
      }
    }
  }

  /** `_.TEXT_INT` and `_.TEXT_FLOAT` leave a plain text menu. */
  lemma NumberRulesGiveText(before: seq<Value>)
    ensures LastKind(before + [Str("_.TEXT_INT")]) == "text"
    ensures LastKind(before + [Str("_.TEXT_FLOAT")]) == "text"
  {
    assert IsTextRule(Str("_.TEXT_INT"));
    assert IsTextRule(Str("_.TEXT_FLOAT"));
  }

  /** One option of the settings menu. */
  datatype Slot =
    | Blank   // the choices were neither a list nor a string: `options[name]` stays `""`
    | Rule(current: Value)   // the choices were one rule string
    | Menu(current: Value, choices: seq<Value>, kind: string, rules: map<string, string>)

  /** The options in insertion order, as the menu lists them. */
  type Options = seq<(string, Slot)>

  /** The slot `_setup_menu_environment` builds for one setting. `None` when
    * that raises: a bad choice list, or no current value (`KeyError`). */
  function SlotFor(current: map<string, Value>, name: string, choices: Value): Option<Slot> {
    match choices
    case List(items) =>
      (match ScanList(items)
       case None => None
       case Some(sc) => if name in current then Some(Menu(current[name], sc.kept, sc.kind, sc.rules)) else None)
    case Str(_) => if name in current then Some(Rule(current[name])) else None
    case _ => Some(Blank)
  }

  /** The options built from `choices`, setting by setting. */
  function Environment(current: map<string, Value>, choices: seq<(string, Value)>): Option<Options> {
    if choices == [] then Some([])
    else match Environment(current, choices[..|choices| - 1])
      case None => None
      case Some(options) =>
        var (name, cs) := choices[|choices| - 1];
        match SlotFor(current, name, cs)
        case None => None
        case Some(slot) => Some(options + [(name, slot)])
  }

  /** Built options list every setting once, in order, with the setting's
    * current value and, for a list, exactly the values it offers. */
  lemma {:induction false} EnvironmentFacts(current: map<string, Value>, choices: seq<(string, Value)>)
    requires Environment(current, choices).Some?
    ensures |Environment(current, choices).value| == |choices|
    ensures forall i :: 0 <= i < |choices| ==> Environment(current, choices).value[i].0 == choices[i].0
    ensures forall i :: 0 <= i < |choices| && choices[i].1.List? ==>
      Environment(current, choices).value[i].1.Menu? && choices[i].0 in current &&
      Environment(current, choices).value[i].1.current == current[choices[i].0] &&
      Environment(current, choices).value[i].1.choices == Offered(choices[i].1.items)
  {
    if choices != [] {
      var front := choices[..|choices| - 1];
      EnvironmentFacts(current, front);
      var (name, cs) := choices[|choices| - 1];
      if cs.List? {
        ScanListFacts(cs.items);
      }
    }
  }

  // ----------------------------------------------------------------------
  // The key-handling loop of `open_settings_menu`.

  /** What `Terminal.read_control_key` returns; `NoKey` is a falsy answer. */
  datatype Key = Up | Down | Enter | Right | Left | Esc | Letter(c: char) | NoKey

  /** One undo entry: (option, previous value) pairs. */
  type Change = seq<(string, Value)>

  /** The loop's state: `hovering`, `choosing`, `possible_choices` (empty
    * while hovering), the options, the caller's `current` and `_actions`. */
  datatype Nav = Nav(hovering: int, choosing: Option<int>, possible: seq<Value>, options: Options,
                     current: map<string, Value>, actions: seq<Change>)

  /** After a key: keep looping, leave the loop (LEFT while hovering), or an
    * exception, with the state it left behind. */
  datatype Next = Go(nav: Nav) | Done(nav: Nav) | Crash(nav: Nav)

  /** The first position of `name` among the options. */
  function Find(options: Options, name: string): (i: Option<nat>)
    ensures i.Some? ==> i.value < |options| && options[i.value].0 == name
    ensures i.Some? ==> forall j :: 0 <= j < i.value ==> options[j].0 != name
    ensures i.None? ==> forall j :: 0 <= j < |options| ==> options[j].0 != name
  {
    if options == [] then None
    else if options[0].0 == name then Some(0)
    else match Find(options[1..], name)
      case None => None
      case Some(j) => Some(j + 1)
  }

  /** `list.index`: the first position of `v`. */
  function IndexOf(vs: seq<Value>, v: Value): (i: Option<nat>)
    ensures i.Some? <==> v in vs
    ensures i.Some? ==> i.value < |vs| && vs[i.value] == v
    ensures i.Some? ==> forall j :: 0 <= j < i.value ==> vs[j] != v
  {
    if vs == [] then None
    else if vs[0] == v then Some(0)
    else match IndexOf(vs[1..], v)
      case None => None
      case Some(j) => Some(j + 1)
  }

  /** Restore one (option, previous) pair: `options[option]["current"]` and
    * `current[option]` both take the previous value. `false` when the option
    * is unknown (`KeyError`) or blank (`TypeError`). */
  function RestorePair(options: Options, current: map<string, Value>, pair: (string, Value))
    : (Options, map<string, Value>, bool)
  {
    var (name, prev) := pair;
    match Find(options, name)
    case None => (options, current, false)
    case Some(i) =>
      if options[i].1.Blank? then (options, current, false)
      else (options[i := (name, options[i].1.(current := prev))], current[name := prev], true)
  }

  /** The pairs of a change restored in order, stopping at the first that
    * raises. */
  function Restore(options: Options, current: map<string, Value>, change: Change)
    : (Options, map<string, Value>, bool)
  {
    if change == [] then (options, current, true)
    else
      var (o, c, ok) := Restore(options, current, change[..|change| - 1]);
      if ok then RestorePair(o, c, change[|change| - 1]) else (o, c, false)
  }

  /** The map a change describes: each option with its last previous value. */
  function ChangeMap(change: Change): map<string, Value> {
    if change == [] then map[]
    else ChangeMap(change[..|change| - 1])[change[|change| - 1].0 := change[|change| - 1].1]
  }

  /** A change that restores cleanly sets the caller's `current` to itself
    * updated with the change, and keeps every option's name and kind. */
  lemma {:induction false} RestoreUpdates(options: Options, current: map<string, Value>, change: Change)
    ensures Restore(options, current, change).2 ==>
      Restore(options, current, change).1 == current + ChangeMap(change)
    ensures SameShape(options, Restore(options, current, change).0)
  {
    if change != [] {
      var front, pair := change[..|change| - 1], change[|change| - 1];
      RestoreUpdates(options, current, front);
      var (o, c, ok) := Restore(options, current, front);
      if ok {
        RestorePairFacts(o, c, pair);
        SameShapeTrans(options, o, RestorePair(o, c, pair).0);
        if RestorePair(o, c, pair).2 {
          UpdateUnion(current, ChangeMap(front), pair.0, pair.1);
        }
      }
    }
  }

  /** No two options share a name, as the keys of a dictionary. */
  predicate DistinctNames(options: Options) {
    forall i, j :: 0 <= i < |options| && 0 <= j < |options| && i != j ==> options[i].0 != options[j].0
  }

  /** `o` is `options` with the option of each name in `m` set to that
    * name's value in `m`, and every other option as it was. */
  predicate RestoredFrom(options: Options, o: Options, m: map<string, Value>) {
    |o| == |options| &&
    forall j :: 0 <= j < |options| ==>
      o[j].0 == options[j].0 &&
      (options[j].0 in m ==> !options[j].1.Blank? && o[j].1 == options[j].1.(current := m[options[j].0])) &&
      (options[j].0 !in m ==> o[j] == options[j])
  }

  /** A change that restores cleanly sets `options[option]["current"]` of
    * each option it names to the option's last previous value in the change,
    * and leaves every other option as it was. */
  lemma {:induction false} RestoreOptions(options: Options, current: map<string, Value>, change: Change)
    requires DistinctNames(options)
    ensures Restore(options, current, change).2 ==>
      RestoredFrom(options, Restore(options, current, change).0, ChangeMap(change))
  {
    if change != [] {
      var front, pair := change[..|change| - 1], change[|change| - 1];
      RestoreOptions(options, current, front);
      var (o, c, ok) := Restore(options, current, front);
      if ok && RestorePair(o, c, pair).2 {
        RestorePairOptions(options, o, c, pair, ChangeMap(front));
      }
    }
  }

  /** The step of `RestoreOptions`: restoring one more pair extends the map
    * the options were restored from. */
  lemma RestorePairOptions(options: Options, o: Options, c: map<string, Value>, pair: (string, Value), m: map<string, Value>)
    requires DistinctNames(options) && RestoredFrom(options, o, m)
    requires RestorePair(o, c, pair).2
    ensures RestoredFrom(options, RestorePair(o, c, pair).0, m[pair.0 := pair.1])
  {
    var i := Find(o, pair.0).value;
    var o' := RestorePair(o, c, pair).0;
    assert o' == o[i := (pair.0, o[i].1.(current := pair.1))];
    forall j | 0 <= j < |options|
      ensures o'[j].0 == options[j].0
      ensures options[j].0 in m[pair.0 := pair.1] ==>
        !options[j].1.Blank? && o'[j].1 == options[j].1.(current := m[pair.0 := pair.1][options[j].0])
      ensures options[j].0 !in m[pair.0 := pair.1] ==> o'[j] == options[j]
    {
      if j == i {
        assert !options[j].1.Blank?;
      }
    }
  }

  /** One pair changes one option's value and nothing about the options'
    * shape. */
  lemma RestorePairFacts(options: Options, current: map<string, Value>, pair: (string, Value))
    ensures SameShape(options, RestorePair(options, current, pair).0)
    ensures RestorePair(options, current, pair).2 ==> RestorePair(options, current, pair).1 == current[pair.0 := pair.1]
  {
  }

  lemma SameShapeTrans(a: Options, b: Options, c: Options)
    requires SameShape(a, b) && SameShape(b, c)
    ensures SameShape(a, c)
  {
  }

  lemma UpdateUnion(m: map<string, Value>, n: map<string, Value>, k: string, v: Value)
    ensures (m + n)[k := v] == m + n[k := v]
  {
  }

  /** Same names, same kinds of slot and same choice lists. */
  predicate SameShape(a: Options, b: Options) {
    |a| == |b| &&
    forall i :: 0 <= i < |a| ==>
      a[i].0 == b[i].0 && a[i].1.Blank? == b[i].1.Blank? && a[i].1.Menu? == b[i].1.Menu? &&
      (a[i].1.Menu? ==> a[i].1.choices == b[i].1.choices && a[i].1.kind == b[i].1.kind)
  }

  /** UP and DOWN: move by `d` modulo the menu size while hovering, or modulo
    * the number of choices while choosing. A size of zero raises
    * `ZeroDivisionError`. */
  function Move(n: Nav, d: int): Next {
    if n.choosing.None? then
      (if |n.options| == 0 then Crash(n) else Go(n.(hovering := (n.hovering + d) % |n.options|)))
    else
      (if |n.possible| == 0 then Crash(n) else Go(n.(choosing := Some((n.choosing.value + d) % |n.possible|))))
  }

  /** ENTER and RIGHT. While hovering: choose among the hovered option's
    * choices, starting at its current value; raises when there is no such
    * option, it has no choice list, its value is not among its choices, or its
    * type is `text` (`_set_text_prompt` names an undefined `i`). While
    * choosing: the chosen value becomes the option's current value and the
    * menu goes back to hovering. */
  function Select(n: Nav): Next {
    if !(0 <= n.hovering < |n.options|) then Crash(n)
    else
      var (name, slot) := n.options[n.hovering];
      if n.choosing.None? then
        if !slot.Menu? then Crash(n)
        else match IndexOf(slot.choices, slot.current)
          case None => Crash(n)
          case Some(i) =>
            var n' := n.(choosing := Some(i), possible := slot.choices);
            if slot.kind == "text" then Crash(n') else Go(n')
      else if !slot.Menu? || !(0 <= n.choosing.value < |slot.choices|) then Crash(n)
      else
        var chosen := slot.choices[n.choosing.value];
        Go(n.(options := n.options[n.hovering := (name, slot.(current := chosen))], choosing := None, possible := []))
  }

  /** Every other key: pop the latest change (`IndexError` when there is
    * none) and restore it. */
  function Undo(n: Nav): Next {
    if n.actions == [] then Crash(n)
    else
      var (o, c, ok) := Restore(n.options, n.current, n.actions[|n.actions| - 1]);
      var n' := n.(options := o, current := c, actions := n.actions[..|n.actions| - 1]);
      if ok then Go(n') else Crash(n')
  }

  /** One pass of the loop. `key == 'u' or 'U'` is always true, so every key
    * the earlier tests miss, ESC included, undoes. */
  function Step(n: Nav, key: Key): Next {
    match key
    case NoKey => Go(n)
    case Up => Move(n, -1)
    case Down => Move(n, 1)
    case Enter => Select(n)
    case Right => Select(n)
    case Left => if n.choosing.None? then Done(n) else Go(n.(choosing := None, possible := []))
    case _ => Undo(n)
  }

  /** The loop over a run of keys; `Go` when the keys run out first. */
  function Run(n: Nav, keys: seq<Key>): Next
    decreases |keys|
  {
    if keys == [] then Go(n)
    else match Step(n, keys[0])
      case Go(n') => Run(n', keys[1..])
      case other => other
  }

  /** While hovering, UP and DOWN move to the previous and next option,
    * wrapping around at either end; while choosing, they do the same among the
    * choices. */
  lemma MoveWraps(n: Nav)
    requires InRange(n)
    ensures n.choosing.None? && |n.options| > 0 ==>
      Step(n, Up) == Go(n.(hovering := if n.hovering == 0 then |n.options| - 1 else n.hovering - 1)) &&
      Step(n, Down) == Go(n.(hovering := if n.hovering == |n.options| - 1 then 0 else n.hovering + 1))
    ensures n.choosing.Some? ==>
      var c := n.choosing.value;
      Step(n, Up) == Go(n.(choosing := Some(if c == 0 then |n.possible| - 1 else c - 1))) &&
      Step(n, Down) == Go(n.(choosing := Some(if c == |n.possible| - 1 then 0 else c + 1)))
  {
    if n.choosing.None? && |n.options| > 0 {
      Wraps(n.hovering, |n.options|);
    } else if n.choosing.Some? {
      Wraps(n.choosing.value, |n.possible|);
    }
  }

  /** Python's `% size` on a neighbour of an index in range. */
  lemma Wraps(i: int, size: int)
    requires 0 <= i < size
    ensures (i - 1) % size == if i == 0 then size - 1 else i - 1
    ensures (i + 1) % size == if i == size - 1 then 0 else i + 1
  {
    if i == 0 {
      assert (i - 1) % size == (-1) % size;
      assert -1 == (-1) * size + (size - 1);
    }
  }

  /** ESC is the same as `u` and any other letter. */
  lemma EscapeUndoes(n: Nav, c: char)
    ensures Step(n, Esc) == Step(n, Letter('u')) == Step(n, Letter(c)) == Undo(n)
  {
  }

  /** The indices the loop relies on: `hovering` names an option (or is 0 in an
    * empty menu), and while choosing, `choosing` names one of the hovered
    * option's choices. */
  predicate InRange(n: Nav) {
    (0 <= n.hovering < |n.options| || (n.hovering == 0 && |n.options| == 0)) &&
    (n.choosing.Some? ==>
      n.hovering < |n.options| && n.options[n.hovering].1.Menu? &&
      n.possible == n.options[n.hovering].1.choices &&
      0 <= n.choosing.value < |n.possible|)
  }

  /** Every key that does not raise keeps the indices in range. */
  lemma StepKeepsRange(n: Nav, key: Key)
    requires InRange(n)
    ensures Step(n, key).Go? ==> InRange(Step(n, key).nav)
  {
    if !key.NoKey? && !key.Up? && !key.Down? && !key.Enter? && !key.Right? && !key.Left? {
      if n.actions != [] {
        RestoreUpdates(n.options, n.current, n.actions[|n.actions| - 1]);
      }
    }
  }

  lemma {:induction false} RunKeepsRange(n: Nav, keys: seq<Key>)
    requires InRange(n)
    ensures Run(n, keys).Go? ==> InRange(Run(n, keys).nav)
    decreases |keys|
  {
    if keys != [] {
      StepKeepsRange(n, keys[0]);
      if Step(n, keys[0]).Go? {
        RunKeepsRange(Step(n, keys[0]).nav, keys[1..]);
      }
    }
  }

  /** Only undo touches the caller's `current`: choosing a value changes the
    * menu's own copy and nothing else. */
  predicate Undoes(key: Key) {
    key.Esc? || key.Letter?
  }

  lemma {:induction false} CurrentOnlyChangedByUndo(n: Nav, keys: seq<Key>)
    requires forall i :: 0 <= i < |keys| ==> !Undoes(keys[i])
    ensures Run(n, keys).nav.current == n.current
    ensures Run(n, keys).nav.actions == n.actions
    decreases |keys|
  {
    if keys != [] {
      if Step(n, keys[0]).Go? {
        CurrentOnlyChangedByUndo(Step(n, keys[0]).nav, keys[1..]);
      }
    }
  }

  /** ENTER while hovering opens the hovered option's choices at its current
    * value; ENTER again stores the highlighted choice and goes back to
    * hovering; LEFT while choosing goes back without storing anything. */
  lemma SelectTransitions(n: Nav)
    ensures n.choosing.None? && Step(n, Enter).Go? ==>
      var slot := n.options[n.hovering].1;
      var n' := Step(n, Enter).nav;
      slot.Menu? && n'.choosing.Some? && n'.possible == slot.choices &&
      n'.possible[n'.choosing.value] == slot.current && n'.options == n.options
    ensures n.choosing.Some? && Step(n, Enter).Go? ==>
      var slot := n.options[n.hovering].1;
      var n' := Step(n, Enter).nav;
      n'.choosing.None? && n'.current == n.current &&
      n'.options == n.options[n.hovering := (n.options[n.hovering].0, slot.(current := slot.choices[n.choosing.value]))]
    ensures n.choosing.Some? ==> Step(n, Left) == Go(n.(choosing := None, possible := []))
    ensures n.choosing.None? ==> Step(n, Left) == Done(n)
  {
  }

  /** Popping a change restores it in both `options` and `current`. */
  lemma UndoRestores(n: Nav)
    ensures Undo(n).Go? ==> n.actions != []
    ensures Undo(n).Go? ==> Undo(n).nav.current == n.current + ChangeMap(n.actions[|n.actions| - 1])
    ensures Undo(n).Go? ==> Undo(n).nav.actions == n.actions[..|n.actions| - 1]
    ensures Undo(n).Go? && DistinctNames(n.options) ==>
      RestoredFrom(n.options, Undo(n).nav.options, ChangeMap(n.actions[|n.actions| - 1]))
  {
    if n.actions != [] {
      RestoreUpdates(n.options, n.current, n.actions[|n.actions| - 1]);
      if DistinctNames(n.options) {
        RestoreOptions(n.options, n.current, n.actions[|n.actions| - 1]);
      }
    }
  }

  /** The five lines `_set_settings_menu` caches for one option: the not-hovering
    * and hovering renderings `shown`, and three empty ones. */
  function AddLines(c: map<string, Cached>, name: string, shown: (string, string)): map<string, Cached> {
    c[TMP + ("not-hovering." + name) := Text(shown.0)][TMP + ("hovering." + name) := Text(shown.1)]
     [TMP + ("choosing." + name) := Text("")][TMP + ("choosing-hovering." + name) := Text("")]
     [TMP + ("not-choosing-hovering." + name) := Text("")]
  }

  /** The cache `_set_settings_menu` leaves behind, starting from `c`: the lines
    * of each option in turn, up to the first blank one, where
    * `options[name]["current"]` raises. `lines` renders an option's
    * not-hovering and hovering lines from its name and current value. */
  function SettingsLines(c: map<string, Cached>, options: Options, lines: (string, Value) -> (string, string)): map<string, Cached>
    decreases |options|
  {
    if options == [] || options[0].1.Blank? then c
    else SettingsLines(AddLines(c, options[0].0, lines(options[0].0, options[0].1.current)), options[1..], lines)
  }

  /** A line name never starts with `_.`. */
  lemma LineNameDiffers(mode: string, option: string, name: string)
    requires |mode| >= 1 && mode[0] != '_' && |name| >= 1 && name[0] == '_'
    ensures TMP + (mode + option) != TMP + name
  {
    assert (TMP + (mode + option))[|TMP|] == mode[0];
    assert (TMP + name)[|TMP|] == name[0];
  }

  /** `_set_settings_menu` writes only option lines: whatever the cache held
    * under a name starting with `_`, such as the header and the footer, it
    * still holds. */
  lemma {:induction false} SettingsLinesKeep(c: map<string, Cached>, options: Options,
                                             lines: (string, Value) -> (string, string), name: string)
    requires |name| >= 1 && name[0] == '_'
    ensures TMP + name in SettingsLines(c, options, lines) <==> TMP + name in c
    ensures TMP + name in c ==> SettingsLines(c, options, lines)[TMP + name] == c[TMP + name]
    decreases |options|
  {
    if options != [] && !options[0].1.Blank? {
      var o := options[0].0;
      LineNameDiffers("not-hovering.", o, name);
      LineNameDiffers("hovering.", o, name);
      LineNameDiffers("choosing.", o, name);
      LineNameDiffers("choosing-hovering.", o, name);
      LineNameDiffers("not-choosing-hovering.", o, name);
      SettingsLinesKeep(AddLines(c, o, lines(o, options[0].1.current)), options[1..], lines, name);
    }
  }

  /** The footer of the settings menu while hovering. */
  const SETTINGS_FOOTER := Instruction(Some("[Esc] Quit"), None, Some(" | [←] Save | [Enter][→] Select"),
                                       Some(" | [↑][↓] Change"), "star")

  /** Everything `open_settings_menu` does after building its options: a blank
    * option raises in `_set_settings_menu`, before the loop. */
  function Launch(current: map<string, Value>, choices: seq<(string, Value)>, keys: seq<Key>,
                  actions: seq<Change>): Next
  {
    var idle := Nav(0, None, [], [], current, actions);
    match Environment(current, choices)
    case None => Crash(idle)
    case Some(options) =>
      if exists i :: 0 <= i < |options| && options[i].1.Blank? then Crash(idle.(options := options))
      else Run(idle.(options := options), keys)
  }

  /** The class state of `Menus`. */
  class MenuState {
    var cache: map<string, Cached>
    var actions: seq<Change>

    constructor()
      ensures cache == map[] && actions == []
    {
      cache := map[];
      actions := [];
    }

    /** `_get_cache`: the value stored under `name`, `None` when there is
      * none. */
    function GetCache(name: string): (v: Option<Cached>)
      reads this
      ensures v.Some? <==> TMP + name in cache
      ensures v.Some? ==> cache[TMP + name] == v.value
    {
      if TMP + name in cache then Some(cache[TMP + name]) else None
    }

    /** `_clear_cache`: nothing is left. */
    method ClearCache()
      modifies this
      ensures cache == map[] && actions == old(actions)
      ensures forall name :: GetCache(name).None?
    {
      cache := map[];
    }

    /** `_add_cache`: `name` now gives `v`, every other name what it gave
      * before. */
    method AddCache(name: string, v: Cached)
      modifies this
      ensures cache == old(cache)[TMP + name := v] && actions == old(actions)
      ensures GetCache(name) == Some(v)
      ensures forall other :: other != name ==> GetCache(other) == old(GetCache(other))
    {
      cache := cache[TMP + name := v];
      forall other | other != name
        ensures GetCache(other) == old(GetCache(other))
      {
        PrefixedNamesDiffer(other, name);
      }
    }

    /** `_make_menu_footer`: the footer, its length and the right-shift flag,
      * each under its own name. */
    method MakeMenuFooter(footer: seq<Part>, footerLen: int, rightShift: bool)
      modifies this
      ensures cache == old(cache)[TMP + "_.FOOTER" := Footer(footer)][TMP + "_.FOOTER_LEN" := Number(footerLen)]
                                 [TMP + "_.FOOTER_RSHIFT" := Flag(rightShift)]
      ensures actions == old(actions)
      ensures GetCache("_.FOOTER") == Some(Footer(footer))
      ensures GetCache("_.FOOTER_LEN") == Some(Number(footerLen))
      ensures GetCache("_.FOOTER_RSHIFT") == Some(Flag(rightShift))
      ensures forall cols, rows :: DrawFooter(cols, rows) == At(rows, StartColumn(cols, footerLen, rightShift), Footer(footer))
    {
      AddCache("_.FOOTER", Footer(footer));
      AddCache("_.FOOTER_LEN", Number(footerLen));
      AddCache("_.FOOTER_RSHIFT", Flag(rightShift));
    }

    /** `_draw_footer`, on a terminal of `cols` columns and `rows` rows. Only
      * `_make_menu_footer` writes the footer entries, always with a `Flag` and
      * a `Number`; a flag of another kind never arises, and the model treats
      * it as no shift (where Python would test its truthiness). */
    function DrawFooter(cols: int, rows: int): (d: Drawn)
      reads this
      ensures GetCache("_.FOOTER").None? <==> d.NoFooter?
      ensures d.At? ==> Some(d.footer) == GetCache("_.FOOTER") && d.row == rows
      ensures d.DrawFails? ==> GetCache("_.FOOTER_RSHIFT") == Some(Flag(true))
      ensures GetCache("_.FOOTER").Some? && GetCache("_.FOOTER_RSHIFT") != Some(Flag(true)) ==> d.At? && d.col == 0
    {
      match GetCache("_.FOOTER")
      case None => NoFooter
      case Some(footer) =>
        if GetCache("_.FOOTER_RSHIFT") == Some(Flag(true)) then
          match GetCache("_.FOOTER_LEN")
          case Some(Number(n)) => At(rows, StartColumn(cols, n, true), footer)
          case _ => DrawFails
        else At(rows, 0, footer)
    }

    /** `_update_instruction`: the footer becomes the given pieces, its
      * recorded length that of their text without styling (see
      * `InstructionText`); so a right-shifted footer that fits is drawn ending
      * in the last column. */
    method UpdateInstruction(colorBold: Option<string>, colorMsg: Option<string>, boldMsg: Option<string>,
                             msg: Option<string>, color: string, rightShift: bool)
      modifies this
      ensures var footer := Instruction(colorBold, colorMsg, boldMsg, msg, color);
        cache == old(cache)[TMP + "_.FOOTER" := Footer(footer)][TMP + "_.FOOTER_LEN" := Number(|Unstyled(footer)|)]
                           [TMP + "_.FOOTER_RSHIFT" := Flag(rightShift)]
      ensures actions == old(actions)
      ensures var footer := Instruction(colorBold, colorMsg, boldMsg, msg, color);
        forall cols, rows :: DrawFooter(cols, rows) == At(rows, StartColumn(cols, |Unstyled(footer)|, rightShift), Footer(footer))
    {
      var instr: seq<Part> := [];
      var instrLen := 0;
      instr, instrLen := AddPiece(instr, instrLen, colorBold, ColorBold(color));
      instr, instrLen := AddPiece(instr, instrLen, colorMsg, Color(color));
      instr, instrLen := AddPiece(instr, instrLen, boldMsg, Bold);
      instr, instrLen := AddPiece(instr, instrLen, msg, Plain);
      assert instr == Instruction(colorBold, colorMsg, boldMsg, msg, color);
      MakeMenuFooter(instr, instrLen, rightShift);
    }

    /** `_make_menu_header`: `header` is the logo and title it builds. */
    method MakeMenuHeader(header: string)
      modifies this
      ensures cache == old(cache)[TMP + "_.HEADER" := Text(header)] && actions == old(actions)
      ensures GetCache("_.HEADER") == Some(Text(header))
    {
      AddCache("_.HEADER", Text(header));
    }

    /** `_set_settings_menu`: the lines of every option, in order. `ok` is
      * false when a blank option raises a `TypeError`, which leaves the lines
      * of the options before it. */
    method SetSettingsMenu(options: Options, lines: (string, Value) -> (string, string)) returns (ok: bool)
      modifies this
      ensures ok <==> forall i :: 0 <= i < |options| ==> !options[i].1.Blank?
      ensures cache == SettingsLines(old(cache), options, lines) && actions == old(actions)
    {
      var i := 0;
      while i < |options|
        invariant 0 <= i <= |options|
        invariant forall j :: 0 <= j < i ==> !options[j].1.Blank?
        invariant SettingsLines(cache, options[i..], lines) == SettingsLines(old(cache), options, lines)
        invariant actions == old(actions)
      {
        var (name, slot) := options[i];
        if slot.Blank? {
          return false;
        }
        var shown := lines(name, slot.current);
        AddCache("not-hovering." + name, Text(shown.0));
        AddCache("hovering." + name, Text(shown.1));
        AddCache("choosing." + name, Text(""));
        AddCache("choosing-hovering." + name, Text(""));
        AddCache("not-choosing-hovering." + name, Text(""));
        assert options[i..][1..] == options[i + 1..];
        i := i + 1;
      }
      return true;
    }

    /** `open_settings_menu` over `keys`: build the options, the header
      * (`header`), the footer and the option lines (`lines`), then run the
      * loop. The outcome is the one `Launch` describes, and `_actions` loses
      * the changes undone. Only the loop sits under `finally: close_menu()`:
      * when building the options raises, the cache is as before; when a blank
      * option raises, the header, the footer and the lines written so far
      * stay; once the loop is entered the cache ends empty, whether the loop
      * is left by LEFT, by an exception, or by the user's Ctrl-C when the keys
      * run out (`Go`). */
    method OpenSettingsMenu(current: map<string, Value>, choices: seq<(string, Value)>, keys: seq<Key>,
                            header: string, lines: (string, Value) -> (string, string))
      returns (outcome: Next)
      modifies this
      ensures outcome == Launch(current, choices, keys, old(actions))
      ensures actions == outcome.nav.actions
      ensures Environment(current, choices).None? ==> cache == old(cache)
      ensures var env := Environment(current, choices);
        env.Some? && (exists i :: 0 <= i < |env.value| && env.value[i].1.Blank?) ==>
          cache == SettingsLines(old(cache)[TMP + "_.HEADER" := Text(header)][TMP + "_.FOOTER" := Footer(SETTINGS_FOOTER)]
                                           [TMP + "_.FOOTER_LEN" := Number(|Unstyled(SETTINGS_FOOTER)|)]
                                           [TMP + "_.FOOTER_RSHIFT" := Flag(true)],
                                 env.value, lines) &&
          GetCache("_.HEADER") == Some(Text(header)) && GetCache("_.FOOTER") == Some(Footer(SETTINGS_FOOTER))
      ensures var env := Environment(current, choices);
        env.Some? && (forall i :: 0 <= i < |env.value| ==> !env.value[i].1.Blank?) ==> cache == map[]
    {
      var options := SetupMenuEnvironment(current, choices);
      var idle := Nav(0, None, [], [], current, actions);
      if options.None? {
        return Crash(idle);
      }
      MakeMenuHeader(header);
      UpdateInstruction(Some("[Esc] Quit"), None, Some(" | [←] Save | [Enter][→] Select"), Some(" | [↑][↓] Change"),
                        "star", true);
      ghost var framed := cache;
      var ok := SetSettingsMenu(options.value, lines);
      if !ok {
        assert framed == old(cache)[TMP + "_.HEADER" := Text(header)][TMP + "_.FOOTER" := Footer(SETTINGS_FOOTER)]
                                   [TMP + "_.FOOTER_LEN" := Number(|Unstyled(SETTINGS_FOOTER)|)]
                                   [TMP + "_.FOOTER_RSHIFT" := Flag(true)];
        PrefixedNamesDiffer("_.HEADER", "_.FOOTER");
        PrefixedNamesDiffer("_.HEADER", "_.FOOTER_LEN");
        PrefixedNamesDiffer("_.HEADER", "_.FOOTER_RSHIFT");
        assert framed[TMP + "_.HEADER"] == Text(header);
        SettingsLinesKeep(framed, options.value, lines, "_.HEADER");
        SettingsLinesKeep(framed, options.value, lines, "_.FOOTER");
        return Crash(idle.(options := options.value));
      }
      var hovering := 0;
      var choosing: Option<int> := None;
      var possible: seq<Value> := [];
      var opts := options.value;
      var cur := current;
      var k := 0;
      ghost var start := idle.(options := opts);
      while k < |keys|
        invariant 0 <= k <= |keys|
        invariant Run(Nav(hovering, choosing, possible, opts, cur, actions), keys[k..]) == Run(start, keys)
      {
        var n := Nav(hovering, choosing, possible, opts, cur, actions);
        var key := keys[k];
        assert keys[k..][1..] == keys[k + 1..];
        var next := Step(n, key);
        if !next.Go? {
          actions := next.nav.actions;
          ClearCache();
          return next;
        }
        hovering, choosing, possible, opts, cur := next.nav.hovering, next.nav.choosing, next.nav.possible, next.nav.options, next.nav.current;
        actions := next.nav.actions;
        k := k + 1;
      }
      ClearCache();
      outcome := Go(Nav(hovering, choosing, possible, opts, cur, actions));
    }
  }

  /** Once a prefix of a choice list raises, the whole list does. */
  lemma {:induction false} ScanStaysRaised(cs: seq<Value>, i: nat)
    requires i <= |cs| && ScanList(cs[..i]).None?
    ensures ScanList(cs).None?
    decreases |cs| - i
  {
    if i < |cs| {
      assert cs[..i + 1][..i] == cs[..i];
      ScanStaysRaised(cs, i + 1);
    } else {
      assert cs[..i] == cs;
    }
  }

  /** Once building the options for a prefix of the settings raises, building
    * them for all of them does. */
  lemma {:induction false} EnvironmentStaysRaised(current: map<string, Value>, choices: seq<(string, Value)>, i: nat)
    requires i <= |choices| && Environment(current, choices[..i]).None?
    ensures Environment(current, choices).None?
    decreases |choices| - i
  {
    if i < |choices| {
      assert choices[..i + 1][..i] == choices[..i];
      EnvironmentStaysRaised(current, choices, i + 1);
    } else {
      assert choices[..i] == choices;
    }
  }

  /** Once a pair of a change raises, the rest of the change is not
    * applied. */
  lemma {:induction false} RestoreStaysFailed(options: Options, current: map<string, Value>, change: Change, i: nat)
    requires i <= |change| && !Restore(options, current, change[..i]).2
    ensures Restore(options, current, change) == Restore(options, current, change[..i])
    decreases |change| - i
  {
    if i < |change| {
      assert change[..i + 1][..i] == change[..i];
      RestoreStaysFailed(options, current, change, i + 1);
    } else {
      assert change[..i] == change;
    }
  }

  /** One `if ... is not None` step of `_update_instruction`: a given message
    * adds a piece in the given style and its length. */
  method AddPiece(instr: seq<Part>, instrLen: int, m: Option<string>, style: Style)
    returns (instr': seq<Part>, instrLen': int)
    requires instrLen == |Unstyled(instr)|
    ensures instr' == instr + Piece(m, style)
    ensures instrLen' == |Unstyled(instr')|
  {
    instr', instrLen' := instr, instrLen;
    if m.Some? {
      instrLen' := instrLen' + |m.value|;
      UnstyledSnoc(instr', Part(style, m.value));
      instr' := instr' + [Part(style, m.value)];
    }
  }

  /** `_setup_menu_environment` for the `choices` the settings menu passes:
    * one option per setting, in order. */
  method SetupMenuEnvironment(current: map<string, Value>, choices: seq<(string, Value)>)
    returns (options: Option<Options>)
    ensures options == Environment(current, choices)
  {
    var built: Options := [];
    for i := 0 to |choices|
      invariant Environment(current, choices[..i]) == Some(built)
    {
      assert choices[..i + 1][..i] == choices[..i];
      var (name, cs) := choices[i];
      var slot: Slot := Blank;
      if cs.List? {
        var scan := ScanChoices(cs.items);
        if scan.None? || name !in current {
          EnvironmentStaysRaised(current, choices, i + 1);
          return None;
        }
        slot := Menu(current[name], scan.value.kept, scan.value.kind, scan.value.rules);
      } else if cs.Str? {
        if name !in current {
          EnvironmentStaysRaised(current, choices, i + 1);
          return None;
        }
        slot := Rule(current[name]);
      }
      built := built + [(name, slot)];
    }
    assert choices[..|choices|] == choices;
    options := Some(built);
  }

  /** The list branch of `_setup_menu_environment`, entry by entry. */
  method ScanChoices(cs: seq<Value>) returns (scan: Option<Scan>)
    ensures scan == ScanList(cs)
  {
    var kind := "dropdown";
    var rules: map<string, string> := map[];
    var kept: seq<Value> := [];
    for i := 0 to |cs|
      invariant ScanList(cs[..i]) == Some(Scan(kept, kind, rules))
    {
      assert cs[..i + 1][..i] == cs[..i];
      var c := cs[i];
      if !c.Str? {
        ScanStaysRaised(cs, i + 1);
        return None;
      }
      if "_.TEXT" <= c.s {
        var r;
        kind, r := TextRule(c.s, kind);
        if r.None? {
          ScanStaysRaised(cs, i + 1);
          return None;
        }
        if kind == "text" && ':' in c.s {
          rules := r.value;
        }
      } else {
        kept := kept + [c];
      }
    }
    assert cs[..|cs|] == cs;
    scan := Some(Scan(kept, kind, rules));
  }

  /** One `_.TEXT` rule: the two `if` chains that set the type, then, for a
    * plain text rule with fields, the fields' rules. */
  method TextRule(rule: string, kind0: string) returns (kind: string, rules: Option<map<string, string>>)
    ensures kind == TextKind(rule)
    ensures kind == "text" && ':' in rule ==> rules == FieldRules(Split(rule, ':'), |Split(rule, ':')|)
    ensures !(kind == "text" && ':' in rule) ==> rules == Some(map[])
  {
    kind := kind0;
    if rule == "_.TEXT_INT" {
      kind := "text-int";
    } else if rule == "_.TEXT_FLOAT" {
      kind := "text-int";
    }
    rules := Some(map[]);
    if rule == "_.TEXT_PORT" {
      kind := "text-port";
    } else if rule == "_.TEXT_IP_ADDRESS" {
      kind := "text-ip-address";
    } else {
      kind := "text";
      if ':' in rule {
        rules := ParseRules(Split(rule, ':'));
      }
    }
  }

  /** The field loop of a text rule. */
  method ParseRules(params: seq<string>) returns (rules: Option<map<string, string>>)
    ensures rules == FieldRules(params, |params|)
  {
    var r: map<string, string> := map[];
    for i := 0 to |params|
      invariant FieldRules(params, i) == Some(r)
    {
      var p := params[i];
      if p == "MAX" || p == "MIN" {
        if i + 1 >= |params| {
          return None;
        }
        r := r[p := params[i + 1]];
      }
    }
    rules := Some(r);
  }

  /** `for option, prev_choice in prev_change`: restore pair by pair. */
  method RestoreChange(options: Options, current: map<string, Value>, change: Change)
    returns (o: Options, c: map<string, Value>, ok: bool)
    ensures (o, c, ok) == Restore(options, current, change)
  {
    o, c := options, current;
    for i := 0 to |change|
      invariant Restore(options, current, change[..i]) == (o, c, true)
    {
      assert change[..i + 1][..i] == change[..i];
      var (name, prev) := change[i];
      var at := Find(o, name);
      if at.None? || o[at.value].1.Blank? {
        RestoreStaysFailed(options, current, change, i + 1);
        return o, c, false;
      }
      o := o[at.value := (name, o[at.value].1.(current := prev))];
      c := c[name := prev];
    }
    assert change[..|change|] == change;
    ok := true;
  }
}

=== FILE: misc_logo.dfy ===
/**
 * `misc/createlogo.py`: colour every character of a text picture, line by
 * line, in one 24-bit foreground colour. Reading `logo.txt` and writing
 * `./logo` are file I/O. The model takes the lines as `str.splitlines()`
 * returns them and returns the text written.
 */
module MiscLogo {
  import opened Ansi

  /** The script's `rgb`. */
  const FG := Rgb(40, 255, 0)

  /** The lines, each followed by a newline: the text the picture shows. */
  function Terminated(lines: seq<string>): string {
    if lines == [] then [] else Terminated(lines[..|lines| - 1]) + lines[|lines| - 1] + "\n"
  }

  lemma {:induction false} TerminatedAppend(a: seq<string>, b: seq<string>)
    ensures Terminated(a + b) == Terminated(a) + Terminated(b)
    decreases |b|
  {
    if b == [] {
      assert a + b == a;
    } else {
      var n := |b| - 1;
      assert (a + b)[..|a + b| - 1] == a + b[..n];
      assert (a + b)[|a + b| - 1] == b[n];
      TerminatedAppend(a, b[..n]);
    }
  }

  /** `main`: for each line, each character becomes `ANSI_FG + c + ANSI_RESET`,
    * then the line ends with `ANSI_FG + "\n" + ANSI_RESET`. The result is the
    * whole picture coloured character by character, newlines included. */
  method ColorLogo(lines: seq<string>) returns (colored: string)
    ensures colored == Colored(Terminated(lines), FG)
    ensures StripSgr(colored) == Terminated(lines)
    ensures lines == [] ==> colored == ""
  {
    colored := "";
    for k := 0 to |lines|
      invariant colored == Colored(Terminated(lines[..k]), FG)
    {
      var l := lines[k];
      ghost var before := colored;
      for j := 0 to |l|
        invariant colored == before + Colored(l[..j], FG)
      {
        CharStep(before, l, j);
        colored := colored + (Sgr(FG) + [l[j]] + RESET);
      }
      assert l[..|l|] == l;
      LineStep(lines, k);
      colored := colored + (Sgr(FG) + "\n" + RESET);
    }
    assert lines[..|lines|] == lines;
    StripColoredExactly(Terminated(lines), FG);
  }

  /** Colouring one more character of the current line. */
  lemma CharStep(before: string, l: string, j: nat)
    requires j < |l|
    ensures before + Colored(l[..j], FG) + (Sgr(FG) + [l[j]] + RESET) == before + Colored(l[..j + 1], FG)
  {
    ColoredPrefixStep(l, j, FG);
  }

  /** Colouring one more line of the picture. */
  lemma LineStep(lines: seq<string>, k: nat)
    requires k < |lines|
    ensures Colored(Terminated(lines[..k + 1]), FG)
         == Colored(Terminated(lines[..k]), FG) + Colored(lines[k], FG) + (Sgr(FG) + "\n" + RESET)
  {
    TerminatedStep(lines, k);
    ColoredAppend(Terminated(lines[..k]), lines[k], FG);
    ColoredAppend(Terminated(lines[..k]) + lines[k], "\n", FG);
    ColoredOne('\n', FG);
  }

  lemma TerminatedStep(lines: seq<string>, k: nat)
    requires k < |lines|
    ensures Terminated(lines[..k + 1]) == Terminated(lines[..k]) + lines[k] + "\n"
  {
    assert lines[..k + 1][..k] == lines[..k];
  }

  /** The picture of `a + b` is the picture of `a` followed by that of `b`. */
  lemma LogoAppend(a: seq<string>, b: seq<string>)
    ensures Colored(Terminated(a + b), FG) == Colored(Terminated(a), FG) + Colored(Terminated(b), FG)
  {
    TerminatedAppend(a, b);
    ColoredAppend(Terminated(a), Terminated(b), FG);
  }

  /** One line of the picture: its characters, then the coloured newline. */
  lemma LogoOfOneLine(l: string)
    ensures Colored(Terminated([l]), FG) == Colored(l, FG) + Sgr(FG) + "\n" + RESET
  {
    assert [l][..0] == [];
    assert Terminated([l]) == l + "\n";
    ColoredAppend(l, "\n", FG);
    ColoredOne('\n', FG);
  }
}

=== FILE: pystr.dfy ===
/**
 * The few Python string operations the program relies on: `str(n)` and
 * `int(s)` for integers, whitespace as `str.split()` and `str.strip()` see it,
 * and `str.split(sep)` with a one-character separator.
 */
module PyStr {
  import opened Wrappers

  predicate IsDigit(c: char) {
    '0' <= c <= '9'
  }

  predicate AllDigits(s: string) {
    forall i :: 0 <= i < |s| ==> IsDigit(s[i])
  }

  /** The decimal digit for `d`. */
  function Digit(d: nat): (c: char)
    requires d < 10
    ensures IsDigit(c)
  {
    "0123456789"[d]
  }

  /** `str(n)` for a non-negative integer. */
  function Dec(n: nat): (s: string)
    ensures |s| >= 1 && AllDigits(s)
    decreases n
  {
    if n < 10 then [Digit(n)] else Dec(n / 10) + [Digit(n % 10)]
  }

  /** The number a string of decimal digits denotes. */
  function DigitsValue(s: string): nat
    requires AllDigits(s)
  {
    if s == [] then 0 else 10 * DigitsValue(s[..|s| - 1]) + (s[|s| - 1] as int - '0' as int)
  }

  /** The digits `int()` reads: ASCII digits, where one underscore may stand
    * between two digits. */
  predicate IsDigitGroups(s: string) {
    |s| >= 1 && IsDigit(s[0]) && IsDigit(s[|s| - 1]) &&
    (forall i :: 0 <= i < |s| ==> IsDigit(s[i]) || s[i] == '_') &&
    (forall i, j :: 0 <= i < |s| && 0 <= j < |s| && j == i + 1 ==> IsDigit(s[i]) || IsDigit(s[j]))
  }

  /** The digits of `s`, its underscores removed. */
  function DropUnderscores(s: string): (d: string)
    requires forall i :: 0 <= i < |s| ==> IsDigit(s[i]) || s[i] == '_'
    ensures AllDigits(d) && |d| <= |s|
  {
    if s == [] then [] else (if s[0] == '_' then [] else [s[0]]) + DropUnderscores(s[1..])
  }

  /** `int(s)` on the text a split produces (so without surrounding
    * whitespace): an optional sign, then ASCII digits with single underscores
    * allowed between them; anything else raises `ValueError` (`None` here). */
  function ParseInt(s: string): (r: Option<int>)
    ensures r.Some? ==> |s| >= 1
  {
    if |s| >= 2 && (s[0] == '-' || s[0] == '+') && IsDigitGroups(s[1..]) then
      var v := DigitsValue(DropUnderscores(s[1..])) as int;
      Some(if s[0] == '-' then 0 - v else v)
    else if IsDigitGroups(s) then Some(DigitsValue(DropUnderscores(s)) as int)
    else None
  }

  /** Text without underscores loses nothing. */
  lemma {:induction false} DropNothing(s: string)
    requires AllDigits(s)
    ensures DropUnderscores(s) == s
    decreases |s|
  {
    if s != [] {
      DropNothing(s[1..]);
      assert [s[0]] + s[1..] == s;
    }
  }

  /** A run of ASCII digits parses to the number it denotes. */
  lemma ParseDigits(s: string)
    requires |s| >= 1 && AllDigits(s)
    ensures ParseInt(s) == Some(DigitsValue(s) as int)
  {
    assert IsDigit(s[0]);
    assert IsDigitGroups(s);
    DropNothing(s);
  }

  /** The digits of `str(n)` denote `n`. */
  lemma {:induction false} DecValue(n: nat)
    ensures DigitsValue(Dec(n)) == n
    decreases n
  {
    if n >= 10 {
      DecValue(n / 10);
      var s := Dec(n);
      assert s[..|s| - 1] == Dec(n / 10);
    }
  }

  /** `int(str(n)) == n`. */
  lemma DecRoundTrip(n: nat)
    ensures ParseInt(Dec(n)) == Some(n)
  {
    DecValue(n);
    ParseDigits(Dec(n));
  }

  /** Underscores drop out of each part of a concatenation alike. */
  lemma {:induction false} DropAppend(x: string, y: string)
    requires forall i :: 0 <= i < |x| ==> IsDigit(x[i]) || x[i] == '_'
    requires forall i :: 0 <= i < |y| ==> IsDigit(y[i]) || y[i] == '_'
    ensures DropUnderscores(x + y) == DropUnderscores(x) + DropUnderscores(y)
    decreases |x|
  {
    if x != [] {
      assert (x + y)[1..] == x[1..] + y;
      DropAppend(x[1..], y);
    } else {
      assert x + y == y;
    }
  }

  /** Two digit groups joined by one underscore are a digit group. */
  lemma JoinGroups(a: string, b: string)
    requires IsDigitGroups(a) && IsDigitGroups(b)
    ensures IsDigitGroups(a + "_" + b)
  {
    var s := a + "_" + b;
    forall i | 0 <= i < |s| ensures IsDigit(s[i]) || s[i] == '_' {
      if i < |a| { assert s[i] == a[i]; } else if i > |a| { assert s[i] == b[i - |a| - 1]; }
    }
    forall i, j | 0 <= i < |s| && 0 <= j < |s| && j == i + 1 ensures IsDigit(s[i]) || IsDigit(s[j]) {
      if i < |a| - 1 { assert s[i] == a[i] && s[j] == a[j]; }
      else if i == |a| - 1 { assert s[i] == a[|a| - 1]; }
      else if i == |a| { assert s[j] == b[0]; }
      else { assert s[i] == b[i - |a| - 1] && s[j] == b[j - |a| - 1]; }
    }
    assert s[0] == a[0] && s[|s| - 1] == b[|b| - 1];
  }

  /** A digit group parses, bare or after a sign, to the number its digits
    * denote. */
  lemma ParseGroups(s: string)
    requires IsDigitGroups(s)
    ensures var v := DigitsValue(DropUnderscores(s)) as int;
      ParseInt(s) == Some(v) && ParseInt("+" + s) == Some(v) && ParseInt("-" + s) == Some(0 - v)
  {
    assert s[0] != '-' && s[0] != '+';
    assert ("+" + s)[1..] == s;
    assert ("-" + s)[1..] == s;
  }

  /** Underscores group digits: one underscore between two digit groups is
    * accepted and ignored, with or without a sign in front. */
  lemma UnderscoresGroupDigits(a: string, b: string)
    requires IsDigitGroups(a) && IsDigitGroups(b)
    ensures DropUnderscores(a + "_" + b) == DropUnderscores(a) + DropUnderscores(b)
    ensures var s := a + "_" + b; var v := DigitsValue(DropUnderscores(s)) as int;
      ParseInt(s) == Some(v) && ParseInt("+" + s) == Some(v) && ParseInt("-" + s) == Some(0 - v)
  {
    JoinGroups(a, b);
    DropJoin(a, b);
    ParseGroups(a + "_" + b);
  }

  /** The underscore that joins two groups drops out. */
  lemma DropJoin(a: string, b: string)
    requires IsDigitGroups(a) && IsDigitGroups(b)
    ensures DropUnderscores(a + "_" + b) == DropUnderscores(a) + DropUnderscores(b)
  {
    DropAppend(a + "_", b);
    DropAppend(a, "_");
    assert DropUnderscores("_") == [];
  }

  /** In a digit group every underscore stands between two digits. */
  lemma GroupedUnderscore(t: string, k: nat)
    requires IsDigitGroups(t) && k < |t| && t[k] == '_'
    ensures 0 < k < |t| - 1 && IsDigit(t[k - 1]) && IsDigit(t[k + 1])
  {
    assert k != 0 && k != |t| - 1;
    var before, after := t[k - 1], t[k + 1];
  }

  /** An underscore that does not stand between two digits (leading, trailing,
    * doubled, or next to the sign) makes `int()` raise. */
  lemma MisplacedUnderscoresRaise(s: string, i: nat)
    requires i < |s| && s[i] == '_'
    requires i == 0 || i == |s| - 1 || !IsDigit(s[i - 1]) || !IsDigit(s[i + 1])
    ensures ParseInt(s).None?
  {
    if |s| >= 2 && (s[0] == '-' || s[0] == '+') && IsDigitGroups(s[1..]) {
      assert i != 0 && s[1..][i - 1] == '_';
      GroupedUnderscore(s[1..], i - 1);
      assert false;
    }
    if IsDigitGroups(s) {
      GroupedUnderscore(s, i);
      assert false;
    }
  }

  /** Python's `str.isspace` for one character. */
  predicate IsSpace(c: char) {
    c == ' ' || ('\t' <= c <= '\r') || ('\U{1C}' <= c <= '\U{1F}') || c == '\U{85}' || c == '\U{A0}'
    || c == '\U{1680}' || ('\U{2000}' <= c <= '\U{200A}') || c == '\U{2028}' || c == '\U{2029}'
    || c == '\U{202F}' || c == '\U{205F}' || c == '\U{3000}'
  }

  /** The length of the run of non-space characters at the start of `s`. */
  function WordLength(s: string): (n: nat)
    ensures n <= |s|
    ensures forall i :: 0 <= i < n ==> !IsSpace(s[i])
    ensures n < |s| ==> IsSpace(s[n])
  {
    if s == [] || IsSpace(s[0]) then 0 else 1 + WordLength(s[1..])
  }

  /** `s.split()`: the maximal runs of non-space characters. */
  function Words(s: string): (ws: seq<string>)
    ensures forall k :: 0 <= k < |ws| ==> ws[k] != []
    decreases |s|
  {
    if s == [] then []
    else if IsSpace(s[0]) then Words(s[1..])
    else
      var n := WordLength(s);
      [s[..n]] + Words(s[n..])
  }

  /** A string that starts with a non-space character has that run as its first word. */
  lemma FirstWord(s: string)
    requires s != [] && !IsSpace(s[0])
    ensures Words(s) != [] && Words(s)[0] == s[..WordLength(s)]
  {
  }

  /** `s.strip()`: leading and trailing whitespace removed. */
  function Strip(s: string): (t: string)
    ensures |t| <= |s|
    decreases |s|
  {
    if s == [] then []
    else if IsSpace(s[0]) then Strip(s[1..])
    else if IsSpace(s[|s| - 1]) then Strip(s[..|s| - 1])
    else s
  }

  /** `bool(s.strip())`: the stripped text is non-empty exactly when `s` holds a
    * character that is not whitespace. */
  lemma {:induction false} StripNonEmpty(s: string)
    ensures Strip(s) != [] <==> exists i :: 0 <= i < |s| && !IsSpace(s[i])
    decreases |s|
  {
    if s == [] {
    } else if IsSpace(s[0]) {
      StripNonEmpty(s[1..]);
      if exists i :: 0 <= i < |s| && !IsSpace(s[i]) {
        var i :| 0 <= i < |s| && !IsSpace(s[i]);
        assert s[1..][i - 1] == s[i];
      }
      if exists i :: 0 <= i < |s[1..]| && !IsSpace(s[1..][i]) {
        var i :| 0 <= i < |s[1..]| && !IsSpace(s[1..][i]);
        assert s[i + 1] == s[1..][i];
      }
    } else if IsSpace(s[|s| - 1]) {
      StripNonEmpty(s[..|s| - 1]);
      assert s[..|s| - 1][0] == s[0];
    }
  }

  /** `s.split(sep)` for a one-character separator: always at least one field,
    * and the fields hold no separator. */
  function Split(s: string, sep: char): (fields: seq<string>)
    ensures |fields| >= 1
    ensures forall k :: 0 <= k < |fields| ==> sep !in fields[k]
    decreases |s|
  {
    if s == [] then [[]]
    else
      var rest := Split(s[1..], sep);
      if s[0] == sep then [[]] + rest else [[s[0]] + rest[0]] + rest[1..]
  }

  /** `sep.join(fields)`. */
  function Join(fields: seq<string>, sep: char): string
    requires |fields| >= 1
  {
    if |fields| == 1 then fields[0] else fields[0] + [sep] + Join(fields[1..], sep)
  }

  /** Splitting loses nothing: joining the fields back gives the text. */
  lemma {:induction false} SplitJoin(s: string, sep: char)
    ensures Join(Split(s, sep), sep) == s
    decreases |s|
  {
    if s != [] {
      SplitJoin(s[1..], sep);
      var rest := Split(s[1..], sep);
      if s[0] == sep {
        assert ([[]] + rest)[1..] == rest;
        assert s == [sep] + s[1..];
      } else {
        var fields := [[s[0]] + rest[0]] + rest[1..];
        if |rest| == 1 {
          assert s == [s[0]] + s[1..];
        } else {
          assert fields[1..] == rest[1..];
          assert Join(rest, sep) == rest[0] + [sep] + Join(rest[1..], sep);
          assert s == [s[0]] + s[1..];
        }
      }
    }
  }
}

=== FILE: restart.dfy ===
/**
 * `diablo/restart.py`: stop the recorded session and start it again in the
 * role it had. Starting a role is recorded in the outcome rather than run (the
 * client side of the program is not part of this model).
 */
module Restart {
  import opened Wrappers
  import opened Json
  import opened Status

  datatype Role = ServerRole | ClientRole

  datatype Outcome =
    | NoPriorSession          // nothing recorded, or the recorded pid is dead
    | Started(role: Role)     // `Server.start_server()` or `start_client()`
    | UnknownMode             // "Unknown session mode."

  /** The role a recorded mode names, if any. */
  function RoleOf(mode: Value): (r: Option<Role>)
    ensures r == Some(ServerRole) <==> mode == Str("server")
    ensures r == Some(ClientRole) <==> mode == Str("client")
  {
    if mode == Str("server") then Some(ServerRole)
    else if mode == Str("client") then Some(ClientRole)
    else None
  }

  /** `restart`: with a live session of any mode, SIGTERM its pid, clear the
    * record if that raised nothing, then start the recorded role whatever
    * the kill did. Returns the pid signalled, if any. */
  method Restart(store: StatusStore, procEntries: set<string>, kill: KillResult)
    returns (outcome: Outcome, signalled: Option<Value>)
    modifies store
    ensures var rec := old(store.LoadStatus());
      !(rec != map[] && Alive(Get(rec, "pid", Null), procEntries)) ==>
        outcome == NoPriorSession && signalled == None
    ensures old(store.LoadStatus()) == map[] ==> store.file == old(store.file)
    ensures var rec := old(store.LoadStatus());
      rec != map[] && !Alive(Get(rec, "pid", Null), procEntries) ==> store.file == Missing
    ensures var rec := old(store.LoadStatus());
      rec != map[] && Alive(Get(rec, "pid", Null), procEntries) ==>
        signalled == Some(Get(rec, "pid", Null)) &&
        (KillOutcome(Get(rec, "pid", Null), kill) == Delivered ==> store.file == Missing) &&
        (KillOutcome(Get(rec, "pid", Null), kill) != Delivered ==> store.file == old(store.file)) &&
        outcome == (match RoleOf(Get(rec, "mode", Null))
                    case Some(role) => Started(role)
                    case None => UnknownMode)
  {
    var active, status := store.IsSessionActive(None, procEntries);
    if !active {
      return NoPriorSession, None;
    }
    var pid := Get(status.value, "pid", Null);
    signalled := Some(pid);
    if KillOutcome(pid, kill) == Delivered {
      store.ClearStatus();
    }
    var mode := Get(status.value, "mode", Null);
    if mode == Str("server") {
      outcome := Started(ServerRole);
    } else if mode == Str("client") {
      outcome := Started(ClientRole);
    } else {
      outcome := UnknownMode;
    }
  }
}

=== FILE: server.dfy ===
/**
 * `diablo/server.py`: the host-mode entry points. The class attributes of
 * `Server` are evaluated once, when the class is defined; in particular
 * `active` and `status` are a snapshot of `is_session_active("server")` taken
 * then, and `stop_server` acts on that snapshot. The registry is the
 * `StatusStore` of the status module; `exit()` ends the program with code 0.
 * Setting up the TUN device, TLS and forwarding is recorded as a flag.
 */
module Server {
  import opened Wrappers
  import opened Json
  import opened Status

  /** The record `check_status` saves for a fresh server. */
  function ServerRecord(pid: int, hostIp: string): (r: Record)
    ensures r.Keys == {"mode", "pid", "host_ip", "connected_clients", "password_required"}
    ensures r["mode"] == Str("server") && r["pid"] == Int(pid) && r["host_ip"] == Str(hostIp)
    ensures r["connected_clients"] == Int(0) && r["password_required"] == Bool(false)
  {
    map["mode" := Str("server"), "pid" := Int(pid), "host_ip" := Str(hostIp),
        "connected_clients" := Int(0), "password_required" := Bool(false)]
  }

  /** `_check_platform`: host mode only runs on Linux. */
  function CheckPlatform(system: string): (flow: Flow)
    ensures flow == Continue <==> system == "Linux"
    ensures flow != Continue ==> flow == Exit(0)
  {
    if system != "Linux" then Exit(0) else Continue
  }

  class Server {
    /** `Server.pid` and `Server.host_ip`: this process and its address. */
    const pid: int
    const hostIp: string
    /** The snapshot of `is_session_active(expected_mode="server")`. */
    const active: bool
    const status: Option<Record>
    /** Whether the TUN device, TLS and forwarding have been set up. */
    var tunnelStarted: bool

    /** The snapshot is a live server record whenever it is active, so
      * `mode.capitalize()` in `stop_server` cannot raise. */
    predicate Valid() {
      (active <==> status.Some?) &&
      (active ==> Get(status.value, "mode", Null) == Str("server"))
    }

    /** The class definition: takes the registry snapshot, which may delete a
      * stale record. */
    constructor(store: StatusStore, pid: int, hostIp: string, procEntries: set<string>)
      modifies store
      ensures Valid()
      ensures this.pid == pid && this.hostIp == hostIp && !tunnelStarted
      ensures active ==> status == Some(old(store.LoadStatus()))
      ensures active ==> Alive(Get(status.value, "pid", Null), procEntries)
      ensures active ==> Get(status.value, "mode", Null) == Str("server")
      ensures var rec := old(store.LoadStatus());
        active <==> rec != map[] && Alive(Get(rec, "pid", Null), procEntries) && Get(rec, "mode", Null) == Str("server")
      ensures var rec := old(store.LoadStatus());
        rec == map[] || Alive(Get(rec, "pid", Null), procEntries) ==> store.file == old(store.file)
      ensures var rec := old(store.LoadStatus());
        rec != map[] && !Alive(Get(rec, "pid", Null), procEntries) ==> store.file == Missing
    {
      var a, s := store.IsSessionActive(Some("server"), procEntries);
      this.pid := pid;
      this.hostIp := hostIp;
      active := a;
      status := s;
      tunnelStarted := false;
    }

    /** `check_status`: exit when a server is already running, otherwise
      * record this one. */
    method CheckStatus(store: StatusStore) returns (flow: Flow)
      modifies store
      ensures active ==> flow == Exit(0) && store.file == old(store.file)
      ensures !active ==> flow == Continue && store.file == Present(Decodes(ServerRecord(pid, hostIp)))
      ensures !active ==> store.LoadStatus() == ServerRecord(pid, hostIp)
    {
      if active {
        return Exit(0);
      }
      store.SaveStatus(ServerRecord(pid, hostIp));
      flow := Continue;
    }

    /** `start_server`: the platform check, then the status check, and only
      * then the tunnel. */
    method StartServer(system: string, store: StatusStore) returns (flow: Flow)
      modifies this, store
      ensures system != "Linux" ==> flow == Exit(0) && store.file == old(store.file) && tunnelStarted == old(tunnelStarted)
      ensures system == "Linux" && active ==> flow == Exit(0) && store.file == old(store.file) && tunnelStarted == old(tunnelStarted)
      ensures system == "Linux" && !active ==> flow == Continue && tunnelStarted
      ensures system == "Linux" && !active ==> store.LoadStatus() == ServerRecord(pid, hostIp)
    {
      flow := CheckPlatform(system);
      if flow != Continue {
        return;
      }
      flow := CheckStatus(store);
      if flow != Continue {
        return;
      }
      tunnelStarted := true;
    }

    /** `stop_server`: with a running server in the snapshot and a confirmed
      * prompt, send SIGTERM to the recorded pid (`kill` is the system's
      * answer, see `KillOutcome`); clear the record when the
      * signal was delivered or the process was already gone. Returns the pid
      * passed to `os.kill`, if any: the pid attempted, which was not
      * necessarily signalled (a pid that is not an integer makes `os.kill`
      * raise `TypeError`). */
    method StopServer(store: StatusStore, confirmed: bool, kill: KillResult) returns (target: Option<Value>)
      requires Valid()
      modifies store
      ensures !active ==> target == None && store.file == old(store.file)
      ensures active && !confirmed ==> target == None && store.file == old(store.file)
      ensures active && confirmed ==> target == Some(Get(status.value, "pid", Null))
      ensures active && confirmed && KillOutcome(Get(status.value, "pid", Null), kill) != KillFailed ==>
        store.file == Missing
      ensures active && confirmed && KillOutcome(Get(status.value, "pid", Null), kill) == KillFailed ==>
        store.file == old(store.file)
    {
      if !active {
        return None;
      }
      var pid := Get(status.value, "pid", Null);
      if !confirmed {
        return None;
      }
      target := Some(pid);
      match KillOutcome(pid, kill)
      case Delivered => store.ClearStatus();
      case NoSuchProcess => store.ClearStatus();
      case KillFailed =>
    }
  }
}

=== FILE: settings.dfy ===
/**
 * `diablo/settings.py`: the user's `config.json`, the defaults shipped with
 * the program, and the rules that tie them together. The user's file is a
 * field of `ConfigFile`; the shipped defaults are read-only and are passed in
 * as the record they decode to.
 */
module Settings {
  import opened Wrappers
  import opened Json

  /** `config.json` in the user's configuration directory: absent, or
    * present with bytes that decode to a record or do not decode at all. */
  class ConfigFile {
    var present: bool
    var content: Content

    constructor(present0: bool, content0: Content)
      ensures present == present0 && content == content0
    {
      present := present0;
      content := content0;
    }

    /** `load_config`: the stored record. A missing file raises
      * `FileNotFoundError` and bytes that do not decode raise
      * `JSONDecodeError` (`None` here). */
    function LoadConfig(): (r: Option<Record>)
      reads this
      ensures r.Some? <==> present && content.Decodes?
      ensures r.Some? ==> r.value == content.record
    {
      if present && content.Decodes? then Some(content.record) else None
    }

    /** `save_config`: the file now holds `config`, and loading it gives
      * `config` back. */
    method SaveConfig(config: Record)
      modifies this
      ensures present && content == Decodes(config)
      ensures LoadConfig() == Some(config)
    {
      present, content := true, Decodes(config);
    }

    /** `_ensure_config_exists`: copy the defaults when there is no file; an
      * existing file is kept, whatever it holds. */
    method EnsureConfigExists(defaults: Record)
      modifies this
      ensures present
      ensures old(present) ==> content == old(content)
      ensures !old(present) ==> content == Decodes(defaults)
    {
      if !present {
        present, content := true, Decodes(defaults);
      }
    }

    /** `update_config`: `dict.update` of the stored record with `newValues`.
      * Keys of `newValues` take their new values, every other key keeps its
      * value and none is removed. Returns false, changing nothing, when
      * `load_config` raises. */
    method UpdateConfig(newValues: Record) returns (ok: bool)
      modifies this
      ensures ok <==> old(LoadConfig()).Some?
      ensures ok ==> LoadConfig() == Some(old(content).record + newValues)
      ensures ok ==> content.record.Keys == old(content).record.Keys + newValues.Keys
      ensures ok ==> forall k :: k in newValues ==> content.record[k] == newValues[k]
      ensures ok ==> forall k :: k in old(content).record && k !in newValues ==> content.record[k] == old(content).record[k]
      ensures !ok ==> present == old(present) && content == old(content)
    {
      var config := LoadConfig();
      if config.None? {
        return false;
      }
      SaveConfig(config.value + newValues);
      ok := true;
    }

    /** `validate_config`: copy the defaults over a missing file and answer
      * True (`Some(true)`). Otherwise load the file, which raises on bytes
      * that do not decode (`None`, nothing changed); then, as soon as some
      * stored key is not a default key, copy the defaults over the file, and
      * answer `None` (`Some(false)` here). Whenever it does not raise, every
      * stored key is then a default key. */
    method ValidateConfig(defaults: Record) returns (created: Option<bool>)
      modifies this
      ensures created == Some(true) <==> !old(present)
      ensures created.None? <==> old(present) && old(content).Garbled?
      ensures created.None? ==> present == old(present) && content == old(content)
      ensures created.Some? ==> LoadConfig().Some? && LoadConfig().value.Keys <= defaults.Keys
      ensures created == Some(true) ==> content == Decodes(defaults)
      ensures created == Some(false) && old(content).record.Keys <= defaults.Keys ==> content == old(content)
      ensures created == Some(false) && !(old(content).record.Keys <= defaults.Keys) ==> content == Decodes(defaults)
    {
      if !present {
        present, content := true, Decodes(defaults);
        return Some(true);
      }
      var loaded := LoadConfig();
      if loaded.None? {
        return None;
      }
      var current := loaded.value;
      var keys := current.Keys;
      while keys != {}
        invariant keys <= current.Keys
        invariant present
        invariant (current.Keys - keys) <= defaults.Keys ==> content == Decodes(current)
        invariant !((current.Keys - keys) <= defaults.Keys) ==> content == Decodes(defaults)
        decreases keys
      {
        var key :| key in keys;
        if key !in defaults {
          content := Decodes(defaults);
        }
        keys := keys - {key};
      }
      created := Some(false);
    }
  }

  /** The shipped defaults (`config.json` as laid out in `settings.py`). */
  const DEFAULT_CONFIG: Record := map[
    "require_password" := Bool(true),
    "log_level" := Str("info"),
    "accept_new_connections" := Bool(true),
    "max_clients" := Str("unlimited"),
    "default_server_ip" := Str("10.8.0.1"),
    "bind_interface" := Str("tun0"),
    "monitor_arp_requests" := Bool(true),
    "block_arp_requests" := Bool(true),
    "manipulate_arp_response" := Bool(false),
    "monitor_ports" := Bool(true),
    "filtered_ports" := List([]),
    "blocked_ports" := List([Int(53), Int(67), Int(68)]),
    "persistant_auditing" := Bool(true),
    "spoof_arp" := Bool(false),
    "lockdown_mode" := Bool(false),
    "aggressive_auditing" := Bool(false)]

  /** `Settings.none_bool_options`: the choices of the settings that are not
    * yes/no. */
  const NONE_BOOL_OPTIONS: map<string, seq<Value>> := map[
    "log_level" := [Str("debug"), Str("info"), Str("warning"), Str("error")],
    "default_server_ip" := [Str("10.8.0.1")],
    "max_clients" := [Str("unlimited"), Str("10"), Str("15"), Str("25"), Str("100"), Str("500")],
    "blocked_ports" := [Int(53), Int(67), Int(68)],
    "bind_interface" := [Str("tun0")]]

  /** `_validate_choice`: a rule that is not a `_.TEXT` rule accepts anything;
    * `_.TEXT_INT` accepts ints (bools included), `_.TEXT_FLOAT` floats, and
    * every other `_.TEXT` rule strings. A rule that is not a string has no
    * `startswith` and raises (`None`). */
  function ValidateChoice(choice: Value, rule: Value): (r: Option<bool>)
    ensures r.Some? <==> rule.Str?
    ensures rule.Str? && !("_.TEXT" <= rule.s) ==> r == Some(true)
    ensures rule == Str("_.TEXT_INT") ==> r == Some(IsIntInstance(choice))
    ensures rule == Str("_.TEXT_FLOAT") ==> r == Some(choice.Float?)
    ensures rule.Str? && "_.TEXT" <= rule.s && rule.s != "_.TEXT_INT" && rule.s != "_.TEXT_FLOAT" ==>
      r == Some(choice.Str?)
  {
    if !rule.Str? then None
    else if "_.TEXT" <= rule.s then
      if rule.s == "_.TEXT_INT" then Some(IsIntInstance(choice))
      else if rule.s == "_.TEXT_FLOAT" then Some(choice.Float?)
      else Some(choice.Str?)
    else Some(true)
  }

  /** A default passes `validate_default_choices`: a setting without listed
    * choices must default to a bool; a listed one defaulting to a list is
    * skipped, and otherwise every listed rule must accept its default. */
  predicate DefaultOk(setting: string, choice: Value) {
    if setting !in NONE_BOOL_OPTIONS then choice.Bool?
    else choice.List? || forall rule :: rule in NONE_BOOL_OPTIONS[setting] ==> ValidateChoice(choice, rule) == Some(true)
  }

  /** `validate_default_choices`: true when every default passes; false when
    * the check stops the program (`dev_error(..., exit=True)`, or the
    * `AttributeError` of a rule that is not a string). */
  method ValidateDefaultChoices(defaults: Record) returns (accepted: bool)
    ensures accepted <==> forall setting :: setting in defaults ==> DefaultOk(setting, defaults[setting])
  {
    var keys := defaults.Keys;
    while keys != {}
      invariant keys <= defaults.Keys
      invariant forall setting :: setting in defaults.Keys - keys ==> DefaultOk(setting, defaults[setting])
      decreases keys
    {
      var setting :| setting in keys;
      var choice := defaults[setting];
      if setting !in NONE_BOOL_OPTIONS {
        if !choice.Bool? {
          return false;
        }
      } else if !choice.List? {
        var rules := NONE_BOOL_OPTIONS[setting];
        for i := 0 to |rules|
          invariant forall j :: 0 <= j < i ==> ValidateChoice(choice, rules[j]) == Some(true)
        {
          if ValidateChoice(choice, rules[i]) != Some(true) {
            return false;
          }
        }
      }
      keys := keys - {setting};
    }
    accepted := true;
  }

  /** The shipped defaults do not pass: `filtered_ports` has no listed choices
    * and defaults to `[]`, which is not a bool. Every other default passes. */
  lemma ShippedDefaultsRejected()
    ensures !DefaultOk("filtered_ports", DEFAULT_CONFIG["filtered_ports"])
    ensures forall setting :: setting in DEFAULT_CONFIG && setting != "filtered_ports" ==>
      DefaultOk(setting, DEFAULT_CONFIG[setting])
  {
    forall setting | setting in DEFAULT_CONFIG && setting != "filtered_ports"
      ensures DefaultOk(setting, DEFAULT_CONFIG[setting])
    {
      if setting in NONE_BOOL_OPTIONS && !DEFAULT_CONFIG[setting].List? {
        var choice := DEFAULT_CONFIG[setting];
        forall rule | rule in NONE_BOOL_OPTIONS[setting]
          ensures ValidateChoice(choice, rule) == Some(true)
        {
          assert rule.Str? && |rule.s| > 0 && rule.s[0] != '_';
          NotTextRule(rule.s);
        }
      }
    }
  }

  lemma NotTextRule(s: string)
    requires |s| > 0 && s[0] != '_'
    ensures !("_.TEXT" <= s)
  {
    assert "_.TEXT"[0] == '_';
  }

  /** The choices `find_settings_options` offers for a setting: its listed
    * choices, yes/no for a bool default, and nothing otherwise. */
  function InferredOptions(setting: string, choice: Value): (r: Option<seq<Value>>)
    ensures setting in NONE_BOOL_OPTIONS ==> r == Some(NONE_BOOL_OPTIONS[setting])
    ensures setting !in NONE_BOOL_OPTIONS && choice.Bool? ==> r == Some([Str("Yes"), Str("No")])
    ensures setting !in NONE_BOOL_OPTIONS && !choice.Bool? ==> r.None?
  {
    if setting in NONE_BOOL_OPTIONS then Some(NONE_BOOL_OPTIONS[setting])
    else if choice.Bool? then Some([Str("Yes"), Str("No")])
    else None
  }

  /** How the settings menu shows a stored value: "Yes"/"No" for a bool, and
    * for anything else `str(setting)`, the name of the setting. */
  function DisplayValue(setting: string, choice: Value): string {
    if choice.Bool? then (if choice.b then "Yes" else "No") else setting
  }

  /** `find_settings_options`: validate the defaults (the program stops when
    * they fail: `None`), then add to `options` the inferred choices of every
    * default setting. The shown values are built into a fresh local dict (the
    * parameter is rebound, so the caller's dict is never written); the
    * method returns it as `display`. */
  method FindSettingsOptions(defaults: Record, stored: Record, options: map<string, seq<Value>>)
    returns (result: Option<map<string, seq<Value>>>, display: map<string, string>)
    ensures result.Some? <==> forall setting :: setting in defaults ==> DefaultOk(setting, defaults[setting])
    ensures result.Some? ==> forall s :: s in result.value <==>
      s in options || (s in defaults && InferredOptions(s, defaults[s]).Some?)
    ensures result.Some? ==> forall s :: s in result.value ==>
      result.value[s] == (if s in defaults && InferredOptions(s, defaults[s]).Some?
                          then InferredOptions(s, defaults[s]).value else options[s])
    ensures result.Some? ==> display.Keys == stored.Keys
    ensures result.Some? ==> forall s :: s in stored ==> display[s] == DisplayValue(s, stored[s])
  {
    display := map[];
    var accepted := ValidateDefaultChoices(defaults);
    if !accepted {
      return None, display;
    }
    var filled := InferOptions(defaults, options);
    display := ShownValues(stored);
    result := Some(filled);
  }

  /** The first loop of `find_settings_options`: every default setting with
    * inferred choices gets them; every other entry of `options` stays. */
  method InferOptions(defaults: Record, options: map<string, seq<Value>>) returns (filled: map<string, seq<Value>>)
    ensures forall s :: s in filled <==> s in options || (s in defaults && InferredOptions(s, defaults[s]).Some?)
    ensures forall s :: s in filled ==>
      filled[s] == (if s in defaults && InferredOptions(s, defaults[s]).Some?
                    then InferredOptions(s, defaults[s]).value else options[s])
  {
    filled := options;
    var keys := defaults.Keys;
    while keys != {}
      invariant keys <= defaults.Keys
      invariant forall s :: s in filled <==>
        s in options || (s in defaults.Keys - keys && InferredOptions(s, defaults[s]).Some?)
      invariant forall s :: s in filled ==>
        filled[s] == (if s in defaults.Keys - keys && InferredOptions(s, defaults[s]).Some?
                      then InferredOptions(s, defaults[s]).value else options[s])
      decreases keys
    {
      var setting :| setting in keys;
      var choice := defaults[setting];
      if setting in NONE_BOOL_OPTIONS {
        filled := filled[setting := NONE_BOOL_OPTIONS[setting]];
      } else if choice.Bool? {
        filled := filled[setting := [Str("Yes"), Str("No")]];
      }
      keys := keys - {setting};
    }
  }

  /** The second loop of `find_settings_options`: the shown value of every
    * stored setting. */
  method ShownValues(stored: Record) returns (display: map<string, string>)
    ensures display.Keys == stored.Keys
    ensures forall s :: s in stored ==> display[s] == DisplayValue(s, stored[s])
  {
    display := map[];
    var rest := stored.Keys;
    while rest != {}
      invariant rest <= stored.Keys
      invariant display.Keys == stored.Keys - rest
      invariant forall s :: s in display ==> display[s] == DisplayValue(s, stored[s])
      decreases rest
    {
      var setting :| setting in rest;
      var choice := stored[setting];
      if choice.Bool? {
        if choice.b {
          display := display[setting := "Yes"];
        } else {
          display := display[setting := "No"];
        }
      } else {
        display := display[setting := setting];
      }
      rest := rest - {setting};
    }
  }
}

=== FILE: status.dfy ===
/**
 * `diablo/status.py`: the one persisted session record (`status.json`), the
 * liveness probe that decides whether the recorded session is still running,
 * and the privilege probe `is_root`.
 *
 * The status file is a field of `StatusStore`; reading it is a function,
 * writing and deleting it are methods. The `/proc` probe is an oracle: the set
 * of entry names present under `/proc` when the probe runs.
 */
module Status {
  import opened Wrappers
  import opened PyStr
  import opened Json

  /** The status file: absent, or present with some content. */
  datatype StatusFile = Missing | Present(content: Content)

  /** `str(v)` for the values whose `/proc/{v}` entry could exist: integers
    * (signed decimal), strings (themselves) and booleans. Floats, lists,
    * objects and `None` never name a `/proc` entry. */
  function ProcName(v: Value): (name: Option<string>)
    ensures v.Int? && v.i >= 0 ==> name == Some(Dec(v.i))
    ensures v.Str? ==> name == Some(v.s)
    ensures v.Null? || v.Float? || v.List? || v.Object? ==> name.None?
  {
    match v
    case Int(i) => Some(if i < 0 then "-" + Dec(-i) else Dec(i))
    case Str(s) => Some(s)
    case Bool(b) => Some(if b then "True" else "False")
    case _ => None
  }

  /** `pid and os.path.exists(f"/proc/{pid}")`, with `procEntries` the names
    * present under `/proc`. */
  predicate Alive(pid: Value, procEntries: set<string>) {
    Truthy(pid) && ProcName(pid).Some? && ProcName(pid).value in procEntries
  }

  /** What `os.kill(pid, SIGTERM)` did: delivered the signal, raised
    * `ProcessLookupError`, or raised some other error. An oracle. */
  datatype KillResult = Delivered | NoSuchProcess | KillFailed

  /** What `os.kill` does with a recorded pid, given the system's answer
    * `kill` for an integer pid: an `int` (a `bool` is one) is passed to the
    * system; anything else raises `TypeError` before the system is asked. */
  function KillOutcome(pid: Value, kill: KillResult): (r: KillResult)
    ensures pid.Int? || pid.Bool? ==> r == kill
    ensures !(pid.Int? || pid.Bool?) ==> r == KillFailed
  {
    if pid.Int? || pid.Bool? then kill else KillFailed
  }

  /** `expected_mode is None or mode == expected_mode`. */
  predicate ModeMatches(mode: Value, expectedMode: Option<string>) {
    expectedMode.None? || mode == Str(expectedMode.value)
  }

  /** A missing pid, pid 0 and a pid without a `/proc` entry are all dead. */
  lemma DeadPids(procEntries: set<string>)
    ensures !Alive(Null, procEntries)
    ensures !Alive(Int(0), procEntries)
    ensures forall i: nat :: Dec(i) !in procEntries ==> !Alive(Int(i), procEntries)
  {
  }

  /** The holder of `status.json`. */
  class StatusStore {
    var file: StatusFile

    constructor(file0: StatusFile)
      ensures file == file0
    {
      file := file0;
    }

    /** `load_status`: the record, or `{}` when the file is absent or does not
      * decode. */
    function LoadStatus(): (r: Record)
      reads this
      ensures file.Missing? ==> r == map[]
      ensures file.Present? && file.content.Garbled? ==> r == map[]
      ensures file.Present? && file.content.Decodes? ==> r == file.content.record
    {
      match file
      case Missing => map[]
      case Present(Garbled) => map[]
      case Present(Decodes(record)) => record
    }

    /** `save_status`: the file now holds `data`, and reading it back gives
      * `data`. */
    method SaveStatus(data: Record)
      modifies this
      ensures file == Present(Decodes(data))
      ensures LoadStatus() == data
    {
      file := Present(Decodes(data));
    }

    /** `clear_status`: the file is gone, whether or not it was there; reading
      * it gives `{}`. */
    method ClearStatus()
      modifies this
      ensures file == Missing
      ensures LoadStatus() == map[]
    {
      if file.Present? {
        file := Missing;
      }
    }

    /** `is_session_active`: `(True, status)` when the recorded pid is alive
      * and the mode is the expected one; otherwise `(False, None)`. A record
      * whose pid is not alive is deleted; a live record of another mode and a
      * file that reads as `{}` are left alone. */
    method IsSessionActive(expectedMode: Option<string>, procEntries: set<string>)
      returns (active: bool, status: Option<Record>)
      modifies this
      ensures active <==> status.Some?
      ensures old(LoadStatus()) == map[] ==> !active && file == old(file)
      ensures var rec := old(LoadStatus());
        rec != map[] && Alive(Get(rec, "pid", Null), procEntries) ==>
          file == old(file) &&
          (active <==> ModeMatches(Get(rec, "mode", Null), expectedMode)) &&
          (active ==> status == Some(rec))
      ensures var rec := old(LoadStatus());
        rec != map[] && !Alive(Get(rec, "pid", Null), procEntries) ==> !active && file == Missing
    {
      var rec := LoadStatus();
      if rec == map[] {
        return false, None;
      }
      var pid := Get(rec, "pid", Null);
      var mode := Get(rec, "mode", Null);
      if Alive(pid, procEntries) {
        if ModeMatches(mode, expectedMode) {
          return true, Some(rec);
        }
      } else {
        ClearStatus();
      }
      return false, None;
    }
  }

  /** `is_root` as written: on Windows the probe names `ctypes.wind11`, an
    * attribute `ctypes` does not have, so the bare `except` answers False
    * for every user, administrators included. */
  function IsRoot(system: string, euid: int): (root: bool)
    ensures system == "Linux" || system == "Darwin" ==> (root <==> euid == 0)
    ensures system == "Windows" ==> !root
    ensures system != "Linux" && system != "Darwin" && system != "Windows" ==> root
  {
    if system == "Linux" || system == "Darwin" then euid == 0
    else if system == "Windows" then false
    else true
  }

  /** `is_root` with the Windows probe reaching `IsUserAnAdmin`, whose answer
    * is `isAdmin`. */
  function IsRootIntended(system: string, euid: int, isAdmin: bool): (root: bool)
    ensures system == "Linux" || system == "Darwin" ==> (root <==> euid == 0)
    ensures system == "Windows" ==> (root <==> isAdmin)
    ensures system != "Linux" && system != "Darwin" && system != "Windows" ==> root
  {
    if system == "Windows" then isAdmin else IsRoot(system, euid)
  }

  /** The two agree everywhere except for a Windows administrator, whom the
    * code as written does not recognise. */
  lemma WindowsAdministratorIsNotRoot(euid: int)
    ensures !IsRoot("Windows", euid)
    ensures IsRootIntended("Windows", euid, true)
    ensures forall system: string, e: int, admin: bool :: system != "Windows" ==>
      IsRootIntended(system, e, admin) == IsRoot(system, e)
  {
  }
}

=== FILE: terminal.dfy ===
/**
 * The colouring helpers of the `Terminal` class in `diablo/terminal.py`.
 * Printing is modelled by returning the text `print` would write, including
 * the newline it appends.
 */
module Terminal {
  import opened Wrappers
  import opened Ansi
  import PyStr

  const WHITE := Rgb(255, 255, 255)
  const RED := Rgb(255, 0, 0)
  const GREEN := Rgb(0, 255, 0)
  const BLUE := Rgb(0, 0, 255)
  const LIGHT_BLUE := Rgb(26, 247, 253)
  const LIGHT_YELLOW := Rgb(255, 238, 140)
  const DIABLO_RED := Rgb(255, 25, 7)
  const STAR := Rgb(255, 213, 0)

  /** `Terminal.preset`: the named colours. */
  const PRESET: map<string, Rgb> := map[
    "white" := WHITE, "red" := RED, "green" := GREEN, "blue" := BLUE,
    "light blue" := LIGHT_BLUE, "light yellow" := LIGHT_YELLOW,
    "diablo red" := DIABLO_RED, "star" := STAR]

  /** Python's `if color:` on an optional colour name: `None` and "" are falsy. */
  predicate Given(color: Option<string>) {
    color.Some? && color.value != ""
  }

  /** `_findansi`: the loop that wraps every character of `msg` in colour `rgb`. */
  method FindAnsi(msg: string, rgb: Rgb) returns (ansi: string)
    ensures ansi == Colored(msg, rgb)
    ensures StripSgr(ansi) == msg
    ensures |ansi| == |msg| * (|Sgr(rgb)| + 1 + |RESET|)
  {
    ansi := "";
    for i := 0 to |msg|
      invariant ansi == Colored(msg[..i], rgb)
    {
      ColoredPrefixStep(msg, i, rgb);
      ansi := ansi + Sgr(rgb) + [msg[i]] + RESET;
    }
    assert msg[..|msg|] == msg;
    StripColoredExactly(msg, rgb);
    ColoredLength(msg, rgb);
  }

  /** `return_ansi`: white when neither a colour name nor an rgb is given, the
    * named preset when a name is given (a name unknown to `preset` raises
    * `KeyError`: `None` here), and the rgb otherwise. */
  function ReturnAnsi(msg: string, color: Option<string>, rgb: Option<Rgb>): (r: Option<string>)
    ensures !Given(color) && rgb.None? ==> r == Some(Colored(msg, WHITE))
    ensures Given(color) ==> (r.Some? <==> color.value in PRESET)
    ensures Given(color) && color.value in PRESET ==> r == Some(Colored(msg, PRESET[color.value]))
    ensures !Given(color) && rgb.Some? ==> r == Some(Colored(msg, rgb.value))
    ensures r.Some? ==> StripSgr(r.value) == msg
  {
    StripColoredExactly(msg, WHITE);
    if !Given(color) && rgb.None? then Some(Colored(msg, WHITE))
    else if Given(color) then
      if color.value in PRESET then
        StripColoredExactly(msg, PRESET[color.value]);
        Some(Colored(msg, PRESET[color.value]))
      else None
    else
      StripColoredExactly(msg, rgb.value);
      Some(Colored(msg, rgb.value))
  }

  /** A colour name, when one is given, decides the colour whatever the rgb. */
  lemma NameTakesPrecedence(msg: string, color: Option<string>, rgb: Option<Rgb>)
    requires Given(color)
    ensures ReturnAnsi(msg, color, rgb) == ReturnAnsi(msg, color, None)
  {
  }

  /** `write`: the line printed, or `None` when the colour name is unknown. */
  function Write(msg: string, color: Option<string>, rgb: Option<Rgb>): (out: Option<string>)
    ensures !Given(color) && rgb.None? ==> out == Some(msg + "\n")
    ensures Given(color) ==> (out.Some? <==> color.value in PRESET)
    ensures Given(color) && color.value in PRESET ==> out == Some(Colored(msg, PRESET[color.value]) + "\n")
    ensures !Given(color) && rgb.Some? ==> out == Some(Colored(msg, rgb.value) + "\n")
  {
    if !Given(color) && rgb.None? then Some(msg + "\n")
    else if Given(color) then
      if color.value in PRESET then Some(Colored(msg, PRESET[color.value]) + "\n") else None
    else Some(Colored(msg, rgb.value) + "\n")
  }

  /** A status line: `prefix + msg` in colour `c`, then the newline of `print`. */
  function StatusLine(prefix: string, msg: string, c: Rgb): (out: string)
    ensures StripSgr(out) == prefix + msg + "\n"
    ensures |prefix + msg| > 0 ==> Sgr(c) <= out
  {
    StripColored(prefix + msg, c, "\n");
    StripPlain("\n");
    ColoredStartsWithSelect(prefix + msg, c, "\n");
    Colored(prefix + msg, c) + "\n"
  }

  /** `log`: "[+] " in light blue. */
  function Log(msg: string): (out: string)
    ensures StripSgr(out) == "[+] " + msg + "\n"
    ensures Sgr(LIGHT_BLUE) <= out
    ensures out == Colored("[+] " + msg, LIGHT_BLUE) + "\n"
  {
    StatusLine("[+] ", msg, LIGHT_BLUE)
  }

  /** `warn`: "[-] Warning: " in light yellow. */
  function Warn(msg: string): (out: string)
    ensures StripSgr(out) == "[-] Warning: " + msg + "\n"
    ensures Sgr(LIGHT_YELLOW) <= out
    ensures out == Colored("[-] Warning: " + msg, LIGHT_YELLOW) + "\n"
  {
    StatusLine("[-] Warning: ", msg, LIGHT_YELLOW)
  }

  /** `error`: "[+] " (the same prefix as `log`) in red. */
  function Error(msg: string): (out: string)
    ensures StripSgr(out) == "[+] " + msg + "\n"
    ensures Sgr(RED) <= out
    ensures out == Colored("[+] " + msg, RED) + "\n"
  {
    StatusLine("[+] ", msg, RED)
  }

  /** `success`: "[+] Success: " in green. */
  function Success(msg: string): (out: string)
    ensures StripSgr(out) == "[+] Success: " + msg + "\n"
    ensures Sgr(GREEN) <= out
    ensures out == Colored("[+] Success: " + msg, GREEN) + "\n"
  {
    StatusLine("[+] Success: ", msg, GREEN)
  }

  /** `log` and `error` show the same text and differ only in colour. */
  lemma LogAndErrorShowTheSameText(msg: string)
    ensures StripSgr(Log(msg)) == StripSgr(Error(msg))
    ensures Log(msg) != Error(msg)
  {
    var blue, red := Sgr(LIGHT_BLUE), Sgr(RED);
    assert PyStr.Dec(26) == "26" && PyStr.Dec(255) == "255";
    assert blue[8] == '6' && red[8] == '5';
    assert blue <= Log(msg) && red <= Error(msg);
    assert Log(msg)[8] == '6';
  }
}

=== FILE: toolkit_logo.dfy ===
/**
 * `toolkit/createlogo.py`: colour a text picture, driven by command lines
 * embedded in it. `!star N` paints the next N picture lines in the star
 * colour, `!white` / `!yellow` switch an override on, `!end white` /
 * `!end yellow` switch it off, and a bare `!end` stops. Reading `canvas.txt`
 * and writing the two output files are I/O. The model takes the lines as
 * `str.splitlines()` returns them and returns what is written to each file.
 */
module ToolkitLogo {
  import opened Wrappers
  import opened PyStr
  import opened Ansi
  import MiscLogo

  /** `ANSI_FG`, `ANSI_STAR` and `ANSI_WHITE` of the script. */
  const FG := Rgb(255, 25, 7)
  const STAR := Rgb(255, 213, 0)
  const WHITE := Rgb(255, 255, 255)

  /** The loop's variables `starlen`, `s`, `iswhite` and `isyellow`. */
  datatype Painter = Painter(starLen: int, s: int, white: bool, yellow: bool)

  const START := Painter(0, 0, false, false)

  /** What a line of the picture file means to the loop. */
  datatype Line =
    | Text(text: string)      // a picture line, rendered
    | SetStar(n: int)         // `!star N`
    | BadStar                 // `!star` without an integer: `IndexError` or `ValueError`
    | Stop                    // a bare `!end`
    | EndFlag(name: string)   // `!end <name>`
    | WhiteOn                 // `!white`
    | YellowOn                // `!yellow`

  /** The command tests of the loop, in the order the code makes them. A line
    * starting with `!` that matches none of them is rendered like any other. */
  function Classify(l: string): (k: Line)
    ensures k.Text? ==> k.text == l
    ensures !("!" <= l) ==> k == Text(l)
    ensures !("!star" <= l) && !("!end" <= l) && !("!white" <= l) && !("!yellow" <= l) ==> k == Text(l)
    ensures k == WhiteOn ==> "!white" <= l
    ensures k == YellowOn ==> "!yellow" <= l
  {
    if !("!" <= l) then Text(l)
    else if "!star" <= l then
      var command := Words(l);
      if |command| < 2 then BadStar
      else match ParseInt(command[1])
        case None => BadStar
        case Some(n) => SetStar(n)
    else if "!end" <= l then
      FirstWord(l);
      var command := Words(l);
      if |command| == 1 then Stop else EndFlag(command[1])
    else if "!white" <= l then WhiteOn
    else if "!yellow" <= l then YellowOn
    else Text(l)
  }

  /** Every line of a file, classified. */
  function ClassifyAll(lines: seq<string>): (ls: seq<Line>)
    ensures |ls| == |lines|
  {
    if lines == [] then [] else [Classify(lines[0])] + ClassifyAll(lines[1..])
  }

  /** Lines that are all picture lines. */
  function AsText(ts: seq<string>): (ls: seq<Line>)
    ensures |ls| == |ts|
  {
    if ts == [] then [] else [Text(ts[0])] + AsText(ts[1..])
  }

  /** The colour of the next picture line: the star colour while a star run
    * lasts, overridden by yellow, and white overriding both. */
  function LineColour(p: Painter): Rgb {
    if p.white then WHITE
    else if p.yellow then STAR
    else if p.starLen != 0 && p.s < p.starLen then STAR
    else FG
  }

  /** The loop variables after rendering a picture line: a star run counts the
    * line, or ends once it has counted `starlen` lines. */
  function NextPainter(p: Painter): Painter {
    if p.starLen != 0 then
      if p.s >= p.starLen then Painter(0, 0, p.white, p.yellow)
      else Painter(p.starLen, p.s + 1, p.white, p.yellow)
    else p
  }

  /** On the last line of a star run, `_` and space keep the base colour. */
  predicate LastStarLine(q: Painter) {
    q.starLen != 0 && q.s == q.starLen
  }

  /** The colour of one character: on the last line of a star run `_` and
    * space keep the base colour. */
  function CellColour(c: char, curr: Rgb, fgBlanks: bool): Rgb {
    if fgBlanks && (c == '_' || c == ' ') then FG else curr
  }

  /** One rendered character. */
  function Cell(c: char, curr: Rgb, fgBlanks: bool): string {
    Sgr(CellColour(c, curr, fgBlanks)) + [c] + RESET
  }

  /** The rendered characters of a line. */
  function PaintChars(l: string, curr: Rgb, fgBlanks: bool): string {
    if l == [] then [] else PaintChars(l[..|l| - 1], curr, fgBlanks) + Cell(l[|l| - 1], curr, fgBlanks)
  }

  /** A rendered line: its characters, then `CURR_ANSI + "\n" + ANSI_RESET`. */
  function RenderLine(l: string, curr: Rgb, fgBlanks: bool): string {
    PaintChars(l, curr, fgBlanks) + (Sgr(curr) + "\n" + RESET)
  }

  /** `a` followed by the text `r` holds, if the run did not raise. */
  function OptCat(a: string, r: Option<string>): Option<string> {
    if r.Some? then Some(a + r.value) else None
  }

  /** The text the loop produces from painter state `p` on the classified
    * lines `ls`, or `None` when a `!star` line raises. */
  function PaintLines(p: Painter, ls: seq<Line>): Option<string>
    decreases |ls|
  {
    if ls == [] then Some([])
    else match ls[0]
      case BadStar => None
      case Stop => Some([])
      case Text(l) =>
        var q := NextPainter(p);
        OptCat(RenderLine(l, LineColour(p), LastStarLine(q)), PaintLines(q, ls[1..]))
      case _ => PaintLines(AfterCommand(p, ls[0]), ls[1..])
  }

  /** The loop variables after a command line: `!star N` starts a run of N,
    * `!end white` and `!end yellow` clear an override, `!white` and
    * `!yellow` set one. */
  function AfterCommand(p: Painter, x: Line): Painter {
    match x
    case SetStar(n) => Painter(n, 0, p.white, p.yellow)
    case EndFlag(name) => Painter(p.starLen, p.s, p.white && name != "white", p.yellow && name != "yellow")
    case WhiteOn => p.(white := true)
    case YellowOn => p.(yellow := true)
    case _ => p
  }

  /** The text the script writes for the lines of its input file. */
  function Paint(lines: seq<string>): Option<string> {
    PaintLines(START, ClassifyAll(lines))
  }

  /** `main`: the command loop, then the same text written to `./logo` and to
    * the banner file. The `startswith` tests that open the loop body are
    * `Classify`; when a `!star` line raises, nothing is written. */
  method CreateLogo(lines: seq<string>) returns (logoFile: Option<string>, bannerFile: Option<string>)
    ensures logoFile == bannerFile == Paint(lines)
  {
    var colored := "";
    var starLen, s, isWhite, isYellow := 0, 0, false, false;
    var k := 0;
    ghost var classified := Classified(lines);
    ghost var target := PaintLines(START, classified);
    WholeSuffix(classified);
    OptCatEmpty(target);
    while k < |lines|
      invariant 0 <= k <= |lines|
      invariant OptCat(colored, PaintLines(Painter(starLen, s, isWhite, isYellow), classified[k..])) == target
    {
      var l := lines[k];
      ghost var p := Painter(starLen, s, isWhite, isYellow);
      var command := Classify(l);
      assert command == classified[k];
      if command.BadStar? {
        BadStarAt(colored, p, classified, k, target);
        return None, None;
      } else if command.Stop? {
        StopAt(colored, p, classified, k, target);
        break;
      } else if !command.Text? {
        starLen, s, isWhite, isYellow := ApplyCommand(command, starLen, s, isWhite, isYellow);
        CommandAt(colored, p, Painter(starLen, s, isWhite, isYellow), classified, k, target);
      } else {
        var curr;
        curr, starLen, s := LineColourStep(starLen, s, isWhite, isYellow);
        var fgBlanks := starLen != 0 && s == starLen;
        ghost var before := colored;
        var line := PaintLine(l, curr, fgBlanks);
        colored := colored + line;
        TextAt(colored, before, line, curr, fgBlanks, p, Painter(starLen, s, isWhite, isYellow), classified, k, target);
      }
      k := k + 1;
    }
    if k == |lines| {
      EmptySuffix(classified);
      OptCatNil(colored);
    }
    logoFile := Some(colored);
    bannerFile := Some(colored);
  }

  /** The effect of a command line on the loop variables. */
  method ApplyCommand(command: Line, starLen: int, s: int, isWhite: bool, isYellow: bool)
    returns (starLen': int, s': int, isWhite': bool, isYellow': bool)
    ensures Painter(starLen', s', isWhite', isYellow') == AfterCommand(Painter(starLen, s, isWhite, isYellow), command)
  {
    starLen', s', isWhite', isYellow' := starLen, s, isWhite, isYellow;
    if command.SetStar? {
      starLen', s' := command.n, 0;
    } else if command.EndFlag? {
      if command.name == "white" {
        isWhite' := false;
      }
      if command.name == "yellow" {
        isYellow' := false;
      }
    } else if command.WhiteOn? {
      isWhite' := true;
    } else if command.YellowOn? {
      isYellow' := true;
    }
  }

  /** The colour of a picture line, and the star count after it: a running
    * star block counts the line and colours it, an exhausted one is closed,
    * and white, then yellow, override whatever the star block chose. */
  method LineColourStep(starLen: int, s: int, isWhite: bool, isYellow: bool)
    returns (curr: Rgb, starLen': int, s': int)
    ensures curr == LineColour(Painter(starLen, s, isWhite, isYellow))
    ensures Painter(starLen', s', isWhite, isYellow) == NextPainter(Painter(starLen, s, isWhite, isYellow))
  {
    curr, starLen', s' := FG, starLen, s;
    if starLen != 0 {
      if s >= starLen {
        starLen', s' := 0, 0;
      } else {
        curr := STAR;
        s' := s + 1;
      }
    }
    if isWhite {
      curr := WHITE;
    } else if isYellow {
      curr := STAR;
    }
  }

  /** The inner loop of `main` and the newline after it: every character of a
    * picture line in the line's colour, except `_` and space on the last line
    * of a star run, then a newline in the line's colour. */
  method PaintLine(l: string, curr: Rgb, fgBlanks: bool) returns (line: string)
    ensures line == RenderLine(l, curr, fgBlanks)
    ensures StripSgr(line) == l + "\n"
  {
    var cells := "";
    for j := 0 to |l|
      invariant cells == PaintChars(l[..j], curr, fgBlanks)
    {
      CellStep(l, j, curr, fgBlanks);
      if fgBlanks && (l[j] == '_' || l[j] == ' ') {
        cells := cells + (Sgr(FG) + [l[j]] + RESET);
      } else {
        cells := cells + (Sgr(curr) + [l[j]] + RESET);
      }
    }
    assert l[..|l|] == l;
    line := cells + (Sgr(curr) + "\n" + RESET);
    StripRenderLine(l, curr, fgBlanks, []);
    assert line + [] == line;
    assert StripSgr([]) == [];
    assert l + "\n" + [] == l + "\n";
  }

  /** The classes of the lines of a file, one by one. */
  lemma Classified(lines: seq<string>) returns (classified: seq<Line>)
    ensures |classified| == |lines|
    ensures forall i :: 0 <= i < |lines| ==> classified[i] == Classify(lines[i])
    ensures Paint(lines) == PaintLines(START, classified)
  {
    classified := ClassifyAll(lines);
    forall i | 0 <= i < |lines|
      ensures classified[i] == Classify(lines[i])
    {
      ClassifyAt(lines, i);
    }
  }

  /** The class of line `k` is `Classify` of that line. */
  lemma {:induction false} ClassifyAt(lines: seq<string>, k: nat)
    requires k < |lines|
    ensures ClassifyAll(lines)[k] == Classify(lines[k])
    decreases k
  {
    if k > 0 {
      ClassifyAt(lines[1..], k - 1);
    }
  }

  lemma SuffixCons<T>(xs: seq<T>, k: nat)
    requires k < |xs|
    ensures xs[k..] == [xs[k]] + xs[k + 1..]
  {
  }

  lemma CellStep(l: string, j: nat, curr: Rgb, fgBlanks: bool)
    requires j < |l|
    ensures PaintChars(l[..j + 1], curr, fgBlanks) == PaintChars(l[..j], curr, fgBlanks) + Cell(l[j], curr, fgBlanks)
  {
    assert l[..j + 1][..j] == l[..j];
  }

  lemma WholeSuffix<T>(xs: seq<T>)
    ensures xs[0..] == xs
  {
  }

  lemma EmptySuffix<T>(xs: seq<T>)
    ensures xs[|xs|..] == []
  {
  }

  /** A `!star` line without an integer makes the whole run raise. */
  lemma BadStarAt(colored: string, p: Painter, ls: seq<Line>, k: nat, target: Option<string>)
    requires k < |ls| && ls[k] == BadStar
    requires OptCat(colored, PaintLines(p, ls[k..])) == target
    ensures target == None
  {
    SuffixCons(ls, k);
  }

  /** A bare `!end` ends the loop with the text so far. */
  lemma StopAt(colored: string, p: Painter, ls: seq<Line>, k: nat, target: Option<string>)
    requires k < |ls| && ls[k] == Stop
    requires OptCat(colored, PaintLines(p, ls[k..])) == target
    ensures target == Some(colored)
  {
    SuffixCons(ls, k);
    OptCatNil(colored);
  }

  /** A command line keeps the loop's invariant. */
  lemma CommandAt(colored: string, p: Painter, q: Painter, ls: seq<Line>, k: nat, target: Option<string>)
    requires k < |ls| && !ls[k].Text? && !ls[k].BadStar? && !ls[k].Stop?
    requires OptCat(colored, PaintLines(p, ls[k..])) == target
    requires q == AfterCommand(p, ls[k])
    ensures OptCat(colored, PaintLines(q, ls[k + 1..])) == target
  {
    SuffixCons(ls, k);
    assert ls[k..][1..] == ls[k + 1..];
  }

  /** Rendering a picture line keeps the loop's invariant. */
  lemma TextAt(colored: string, before: string, line: string, curr: Rgb, fgBlanks: bool,
               p: Painter, q: Painter, ls: seq<Line>, k: nat, target: Option<string>)
    requires k < |ls| && ls[k].Text?
    requires OptCat(before, PaintLines(p, ls[k..])) == target
    requires q == NextPainter(p)
    requires curr == LineColour(p) && fgBlanks == LastStarLine(q)
    requires line == RenderLine(ls[k].text, curr, fgBlanks)
    requires colored == before + line
    ensures OptCat(colored, PaintLines(q, ls[k + 1..])) == target
  {
    var r := PaintLines(q, ls[k + 1..]);
    assert PaintLines(p, ls[k..]) == OptCat(line, r) by {
      SuffixCons(ls, k);
      assert ls[k..][1..] == ls[k + 1..];
    }
    OptCatAssoc(before, line, r);
  }

  lemma OptCatChain(x: Option<string>, line: string, y: Option<string>, block: string, tail: string, whole: string)
    requires x == OptCat(line, y) && y == Some(block + tail) && whole == line + block
    ensures x == Some(whole + tail)
  {
    assert line + (block + tail) == whole + tail;
  }

  lemma OptCatEmpty(r: Option<string>)
    ensures OptCat([], r) == r
  {
    if r.Some? {
      assert [] + r.value == r.value;
    }
  }

  lemma OptCatNil(a: string)
    ensures OptCat(a, Some([])) == Some(a)
  {
    assert a + [] == a;
  }

  lemma OptCatAssoc(a: string, b: string, r: Option<string>)
    ensures OptCat(a, OptCat(b, r)) == OptCat(a + b, r)
  {
    if r.Some? {
      assert a + (b + r.value) == a + b + r.value;
    }
  }

  /** Without a `fgBlanks` exception a line is its characters coloured. */
  lemma {:induction false} PaintCharsPlain(l: string, curr: Rgb)
    ensures PaintChars(l, curr, false) == Colored(l, curr)
    decreases |l|
  {
    if l != [] {
      var n := |l| - 1;
      PaintCharsPlain(l[..n], curr);
      ColoredSnoc(l[..n], l[n], curr);
      assert l[..n] + [l[n]] == l;
    }
  }

  /** A rendered line without the exception is the line and its newline coloured. */
  lemma RenderLinePlain(l: string, curr: Rgb)
    ensures RenderLine(l, curr, false) == Colored(l + "\n", curr)
  {
    PaintCharsPlain(l, curr);
    ColoredAppend(l, "\n", curr);
    ColoredOne('\n', curr);
  }

  lemma SnocFront(l: string, t: string)
    requires l != []
    ensures l[..|l| - 1] + ([l[|l| - 1]] + t) == l + t
  {
    assert l[..|l| - 1] + [l[|l| - 1]] == l;
  }

  /** Removing the escape sequences from a line's rendered characters gives the line. */
  lemma {:induction false} StripPaintChars(l: string, curr: Rgb, fgBlanks: bool, t: string)
    ensures StripSgr(PaintChars(l, curr, fgBlanks) + t) == l + StripSgr(t)
    decreases |l|
  {
    if l == [] {
      assert PaintChars(l, curr, fgBlanks) + t == t;
    } else {
      var n := |l| - 1;
      var c := l[n];
      var rest := Cell(c, curr, fgBlanks) + t;
      assert PaintChars(l, curr, fgBlanks) + t == PaintChars(l[..n], curr, fgBlanks) + rest;
      StripPaintChars(l[..n], curr, fgBlanks, rest);
      StripOneColored(c, CellColour(c, curr, fgBlanks), t);
      SnocFront(l, StripSgr(t));
    }
  }

  lemma StripRenderLine(l: string, curr: Rgb, fgBlanks: bool, t: string)
    ensures StripSgr(RenderLine(l, curr, fgBlanks) + t) == l + "\n" + StripSgr(t)
  {
    var newline := Sgr(curr) + "\n" + RESET;
    Assoc(PaintChars(l, curr, fgBlanks), newline, t);
    StripPaintChars(l, curr, fgBlanks, newline + t);
    StripOneColored('\n', curr, t);
    Assoc(l, "\n", StripSgr(t));
  }

  /** The picture lines the loop renders: up to a bare `!end`, without the
    * command lines. */
  function ShownLines(ls: seq<Line>): seq<string>
    decreases |ls|
  {
    if ls == [] then []
    else match ls[0]
      case Stop => []
      case Text(l) => [l] + ShownLines(ls[1..])
      case _ => ShownLines(ls[1..])
  }

  /** The text of a picture line at the front of a picture. */
  lemma TerminatedCons(l: string, rest: seq<string>)
    ensures MiscLogo.Terminated([l] + rest) == l + "\n" + MiscLogo.Terminated(rest)
  {
    MiscLogo.TerminatedAppend([l], rest);
    assert [l][..0] == [];
    assert MiscLogo.Terminated([l]) == l + "\n";
  }

  /** One painted line in front of painted text shows as that line, its newline
    * and the text shown by the rest. */
  lemma StripLineStep(l: string, curr: Rgb, fgBlanks: bool, rest: string, shown: seq<string>)
    requires StripSgr(rest) == MiscLogo.Terminated(shown)
    ensures StripSgr(RenderLine(l, curr, fgBlanks) + rest) == MiscLogo.Terminated([l] + shown)
  {
    StripRenderLine(l, curr, fgBlanks, rest);
    TerminatedCons(l, shown);
  }

  /** Removing the escape sequences from the output gives exactly the rendered
    * picture lines, each followed by a newline: commands emit nothing and
    * nothing after a bare `!end` appears. */
  lemma {:induction false} ShownText(p: Painter, ls: seq<Line>)
    requires PaintLines(p, ls).Some?
    ensures StripSgr(PaintLines(p, ls).value) == MiscLogo.Terminated(ShownLines(ls))
    decreases |ls|
  {
    if ls != [] {
      match ls[0]
      case Stop =>
      case BadStar =>
      case SetStar(_) => ShownText(AfterCommand(p, ls[0]), ls[1..]);
      case EndFlag(_) => ShownText(AfterCommand(p, ls[0]), ls[1..]);
      case WhiteOn => ShownText(AfterCommand(p, ls[0]), ls[1..]);
      case YellowOn => ShownText(AfterCommand(p, ls[0]), ls[1..]);
      case Text(l) =>
        var q := NextPainter(p);
        ShownText(q, ls[1..]);
        StripLineStep(l, LineColour(p), LastStarLine(q), PaintLines(q, ls[1..]).value, ShownLines(ls[1..]));
    }
  }

  /** What the script writes shows, once the escape sequences are removed, the
    * picture lines of the file up to a bare `!end`, each with its newline. */
  lemma ShownPicture(lines: seq<string>)
    requires Paint(lines).Some?
    ensures StripSgr(Paint(lines).value) == MiscLogo.Terminated(ShownLines(ClassifyAll(lines)))
  {
    ShownText(START, ClassifyAll(lines));
  }

  /** A picture coloured in one colour is its first line rendered, then the rest. */
  lemma ColoredCons(l: string, rest: seq<string>, c: Rgb)
    ensures Colored(MiscLogo.Terminated([l] + rest), c) == RenderLine(l, c, false) + Colored(MiscLogo.Terminated(rest), c)
  {
    TerminatedCons(l, rest);
    RenderLinePlain(l, c);
    ColoredAppend(l + "\n", MiscLogo.Terminated(rest), c);
  }

  lemma AsTextCons(ts: seq<string>)
    requires ts != []
    ensures AsText(ts)[0] == Text(ts[0]) && AsText(ts)[1..] == AsText(ts[1..])
  {
  }

  /** Picture lines from the initial state: the picture coloured character by
    * character in the base colour, like `misc/createlogo.py`. */
  lemma {:induction false} PlainPicture(ts: seq<string>)
    ensures PaintLines(START, AsText(ts)) == Some(Colored(MiscLogo.Terminated(ts), FG))
    decreases |ts|
  {
    if ts != [] {
      AsTextCons(ts);
      PlainPicture(ts[1..]);
      ColoredCons(ts[0], ts[1..], FG);
      assert [ts[0]] + ts[1..] == ts;
    }
  }

  /** Once a star run has counted its last line, the next picture line ends it
    * and is in the base colour again. */
  lemma AfterStarRun(n: int, ts: seq<string>)
    requires n != 0
    ensures PaintLines(Painter(n, n, false, false), AsText(ts)) == Some(Colored(MiscLogo.Terminated(ts), FG))
  {
    if ts != [] {
      AsTextCons(ts);
      PlainPicture(ts[1..]);
      assert NextPainter(Painter(n, n, false, false)) == START;
      ColoredCons(ts[0], ts[1..], FG);
      assert [ts[0]] + ts[1..] == ts;
    }
  }

  /** The picture `ts[..m]` in the star colour, then line `m` in the star
    * colour with blanks in the base colour. */
  function StarBlock(ts: seq<string>, m: nat): string
    requires m < |ts|
  {
    Colored(MiscLogo.Terminated(ts[..m]), STAR) + RenderLine(ts[m], STAR, true)
  }

  lemma StarBlockCons(ts: seq<string>, m: nat)
    requires 0 < m < |ts|
    ensures StarBlock(ts, m) == RenderLine(ts[0], STAR, false) + StarBlock(ts[1..], m - 1)
  {
    FrontSlices(ts, m);
    ColoredCons(ts[0], ts[1..m], STAR);
    Assoc(RenderLine(ts[0], STAR, false), Colored(MiscLogo.Terminated(ts[1..m]), STAR), RenderLine(ts[m], STAR, true));
  }

  lemma FrontSlices<T>(ts: seq<T>, m: nat)
    requires 0 < m < |ts|
    ensures ts[1..][..m - 1] == ts[1..m] && ts[..m] == [ts[0]] + ts[1..m] && ts[1..][m - 1] == ts[m]
  {
  }

  lemma Assoc(a: string, b: string, c: string)
    ensures (a + b) + c == a + (b + c)
  {
  }

  /** A picture line inside a star run, before its last line. */
  lemma StarStep(n: int, s: int, ts: seq<string>)
    requires 0 <= s && s + 1 < n && ts != []
    ensures PaintLines(Painter(n, s, false, false), AsText(ts))
         == OptCat(RenderLine(ts[0], STAR, false), PaintLines(Painter(n, s + 1, false, false), AsText(ts[1..])))
  {
    var p := Painter(n, s, false, false);
    TextFirst(p, ts);
    assert LineColour(p) == STAR && NextPainter(p) == Painter(n, s + 1, false, false);
    assert !LastStarLine(NextPainter(p));
  }

  /** The last picture line of a star run. */
  lemma StarLast(n: int, ts: seq<string>)
    requires 1 <= n && ts != []
    ensures PaintLines(Painter(n, n - 1, false, false), AsText(ts))
         == OptCat(RenderLine(ts[0], STAR, true), PaintLines(Painter(n, n, false, false), AsText(ts[1..])))
  {
    var p := Painter(n, n - 1, false, false);
    TextFirst(p, ts);
    assert LineColour(p) == STAR && NextPainter(p) == Painter(n, n, false, false);
    assert LastStarLine(NextPainter(p));
  }

  /** A picture line at the front: rendered in the line colour, then the rest
    * from the next state. */
  lemma TextFirst(p: Painter, ts: seq<string>)
    requires ts != []
    ensures PaintLines(p, AsText(ts))
         == OptCat(RenderLine(ts[0], LineColour(p), LastStarLine(NextPainter(p))), PaintLines(NextPainter(p), AsText(ts[1..])))
  {
    AsTextCons(ts);
  }

  /** The last line of a star run, then the base colour. */
  lemma StarRunEnd(n: int, ts: seq<string>)
    requires 1 <= n && ts != []
    ensures PaintLines(Painter(n, n - 1, false, false), AsText(ts))
         == Some(StarBlock(ts, 0) + Colored(MiscLogo.Terminated(ts[1..]), FG))
  {
    StarLast(n, ts);
    AfterStarRun(n, ts[1..]);
    assert ts[..0] == [];
    assert StarBlock(ts, 0) == RenderLine(ts[0], STAR, true);
  }

  /** Inside a star run at count `s` of `n`, the next `n - s` picture lines are
    * in the star colour; on the last of them `_` and space keep the base
    * colour; every line after is in the base colour. */
  lemma {:induction false} StarRun(n: int, s: int, ts: seq<string>)
    requires 0 <= s < n
    requires |ts| >= n - s
    ensures PaintLines(Painter(n, s, false, false), AsText(ts))
         == Some(StarBlock(ts, n - s - 1) + Colored(MiscLogo.Terminated(ts[n - s..]), FG))
    decreases n - s
  {
    if s == n - 1 {
      StarRunEnd(n, ts);
    } else {
      var m := n - s - 1;
      StarStep(n, s, ts);
      StarRun(n, s + 1, ts[1..]);
      StarBlockCons(ts, m);
      assert ts[1..][m..] == ts[m + 1..];
      OptCatChain(PaintLines(Painter(n, s, false, false), AsText(ts)), RenderLine(ts[0], STAR, false),
        PaintLines(Painter(n, s + 1, false, false), AsText(ts[1..])), StarBlock(ts[1..], m - 1),
        Colored(MiscLogo.Terminated(ts[m + 1..]), FG), StarBlock(ts, m));
    }
  }

  /** `!star N` (N at least 1) followed by picture lines: exactly the next N
    * of them take the star colour, the N-th with its blanks in the base
    * colour, and the lines after it the base colour. */
  lemma StarCommand(l: string, n: int, ts: seq<string>)
    requires Classify(l) == SetStar(n) && n >= 1
    requires |ts| >= n
    requires forall i :: 0 <= i < |ts| ==> !("!" <= ts[i])
    ensures Paint([l] + ts) == Some(StarBlock(ts, n - 1) + Colored(MiscLogo.Terminated(ts[n..]), FG))
  {
    PictureLines(ts);
    assert ([l] + ts)[1..] == ts;
    StarRun(n, 0, ts);
  }

  /** Lines that do not start with `!` are all picture lines. */
  lemma {:induction false} PictureLines(ts: seq<string>)
    requires forall i :: 0 <= i < |ts| ==> !("!" <= ts[i])
    ensures ClassifyAll(ts) == AsText(ts)
    decreases |ts|
  {
    if ts != [] {
      assert !("!" <= ts[0]);
      assert forall i :: 0 <= i < |ts[1..]| ==> ts[1..][i] == ts[i + 1];
      PictureLines(ts[1..]);
    }
  }

  /** A bare `!end` ends the picture: whatever follows it is ignored. */
  lemma EndIgnoresTheRest(p: Painter, l: string, rest: seq<string>)
    requires Classify(l) == Stop
    ensures PaintLines(p, ClassifyAll([l] + rest)) == Some([])
  {
  }

  /** A command line produces no output of its own: the text is that of the
    * lines after it, painted from the state the command leaves. `!star N`
    * restarts the count, `!end white` and `!end yellow` clear their flag,
    * `!white` and `!yellow` set theirs. */
  lemma CommandLinesEmitNothing(p: Painter, x: Line, rest: seq<Line>)
    requires x.SetStar? || x.EndFlag? || x.WhiteOn? || x.YellowOn?
    ensures PaintLines(p, [x] + rest) == PaintLines(AfterCommand(p, x), rest)
    ensures x.SetStar? ==> AfterCommand(p, x) == Painter(x.n, 0, p.white, p.yellow)
    ensures x == EndFlag("white") ==> !AfterCommand(p, x).white && AfterCommand(p, x).yellow == p.yellow
    ensures x == EndFlag("yellow") ==> !AfterCommand(p, x).yellow && AfterCommand(p, x).white == p.white
    ensures x.WhiteOn? ==> AfterCommand(p, x) == p.(white := true)
    ensures x.YellowOn? ==> AfterCommand(p, x) == p.(yellow := true)
  {
    assert ([x] + rest)[1..] == rest;
  }

  /** The overrides: white wins over yellow and the star run, yellow over the
    * star run. */
  lemma OverridePrecedence(p: Painter)
    ensures p.white ==> LineColour(p) == WHITE
    ensures !p.white && p.yellow ==> LineColour(p) == STAR
  {
  }
}

=== FILE: wrappers.dfy ===
/** Optional values, used wherever the Python code returns `None` or may fail. */
module Wrappers {

  datatype Option<+T> = None | Some(value: T)

  /** How a step of the program ends: it goes on, the program exits with a
    * code (`exit()` is code 0), or an exception escapes. */
  datatype Flow = Continue | Exit(code: int) | Raised
}
